=== FILE: README.md ===
# troubleshootd host probes, modelled in Dafny

troubleshootd tests a Sia storage host on behalf of its operator. Given the
host's announced addresses, it does the following:

- dials the RHP2 endpoint and checks its settings;
- derives the RHP3 endpoint from those settings and checks its price table;
- probes every RHP4 address over SiaMux or QUIC and checks those settings;
- reports per-protocol errors and warnings, plus the host's version.

A manager adds three things around the probes:

- a ten-second cooldown per host;
- the hardfork gate: RHP2 and RHP3 are probed only before the v2 allow height;
- a "sticky" version check across the RHP4 probes.

The manager also refreshes the latest hostd release and the chain state in
the background.

This project models that core as pure functions over immutable data:

- `Versions`: the `SemVer` type, its text form, its parser and its comparison.
- `Text`: the string helpers that parser relies on, namely `strings.Split`,
  `strings.Fields`, `strings.Index` and `strconv.ParseUint` with an 8-bit limit.
- `Dns`: the fallback DNS resolver. It follows CNAME chains with a depth
  bound. The recursive resolution never reports "not found". `LookupIP`
  reports it for an empty result, and the single-query helpers `QueryA`,
  `QueryAAAA` and `QueryCNAME` report it for an empty answer.
- `Probe`: the pieces shared by the RHP2 and RHP4 probes:
  - the warnings and errors, one constructor per message;
  - dial-error classification;
  - the collateral and release checks;
  - `Collect`, which gathers the findings of a run of checks in order.
- `Rhp4`: the RHP4 probe. A failed settings RPC still runs every check, on
  zero settings.
- `Rhp2`: the RHP2 and RHP3 probes. A failed RPC ends them early.
- `Manager`: `TestHost`, the cooldown, the RHP3 address derivation, the sticky
  version rule in a given completion order, the reported version,
  `NewManager`, `Close` and the refresh ticks.

The network is modelled as follows:

- Every network step is an outcome record that the caller supplies: a dial,
  a handshake or an RPC either succeeds after some elapsed time or fails with
  a detail text.
- `net.SplitHostPort`, the DNS exchange and `net.ParseIP` are function-valued
  parameters collected in `Probe.Env`.
- `net.JoinHostPort` is modelled concretely.

## Model

| member | source | states |
|---|---|---|
| Versions.ToString | troubleshoot/semver.go:16-21 | The text always starts with `v`, and it holds a `-` exactly when the version has a suffix. |
| Versions.CutSuffix | troubleshoot/semver.go:60-64 | The part before the first `-` holds no `-`. Either there was no `-` and the suffix is empty, or the input is that part, a `-` and the suffix. |
| Versions.ParseComponent | troubleshoot/semver.go:70-83 | A component is accepted exactly when it is a decimal below 256. A rejection names the component and its text. |
| Versions.Parse | troubleshoot/semver.go:49-87 | The input is rejected as empty exactly when it is empty. It is rejected for its prefix exactly when it does not start with `v`. A component error names a component that is not an 8-bit decimal. |
| Versions.ParsePieces | troubleshoot/semver.go:58-86 | For any three dot- and dash-free components and an optional `-suffix`: the first component that is not an 8-bit decimal is reported, major before minor before patch, so none is ever truncated to a byte. Otherwise the result has exactly those three values and that suffix. |
| Versions.ParseNumerals | troubleshoot/semver.go:58-86 | `v` followed by three 8-bit decimals joined by `.`, with an optional `-suffix`, parses to exactly those numbers and that suffix. |
| Versions.ParseShape | troubleshoot/semver.go:49-87 | Every accepted string spells `v`, three dot-separated digit runs and an optional `-suffix`. |
| Versions.ParseToString | troubleshoot/semver.go:16-87 | Round trip: parsing the text form of any version gives back that version. |
| Versions.ParseRejectsOverflow | troubleshoot/semver.go:70-73 | A major number of 256 or more is rejected as a bad major component, not wrapped to a byte. |
| Versions.Cmp | troubleshoot/semver.go:30-46 | The comparison is zero exactly when the three numbers are equal and both or neither version has a suffix. Its sign and values are stated by the lemmas below. |
| Versions.CmpMatchesWeight | troubleshoot/semver.go:30-46 | The sign of the comparison agrees with a single numeric weight: major, then minor, then patch, then "has no suffix". |
| Versions.CmpReflexive | troubleshoot/semver.go:30-46 | A version compares equal to itself. |
| Versions.CmpAntisymmetric | troubleshoot/semver.go:30-46 | Swapping the operands negates the result. |
| Versions.CmpTransitive | troubleshoot/semver.go:30-46 | Both "at most" and "below" are transitive. |
| Versions.CmpNumbersDominate | troubleshoot/semver.go:33-38 | When the numbers differ, the numbers alone decide the result, lexicographically, whatever the suffixes. |
| Versions.CmpSuffixPresence | troubleshoot/semver.go:39-44 | With equal numbers, a release ranks above a pre-release, and two suffixes always compare equal whatever their text. |
| Versions.CmpIsDifference | troubleshoot/semver.go:30-46 | For all versions: when the majors differ the result is their difference, else when the minors differ it is theirs, else when the patches differ it is theirs. With equal numbers the result lies in -1..1. The suffix text never matters, only whether there is one. So the result is not just -1, 0 or 1. |
| Text.Decimal | troubleshoot/semver.go:16-21 | The numeral is non-empty, all digits, and denotes the number. It is a single digit exactly below 10, and it starts with `0` only for zero, so it is the shortest form, as `%d` prints it. |
| Text.ParseUint8 | troubleshoot/semver.go:70-83 | Accepts exactly the non-empty digit strings whose value is below 256, and returns that value. |
| Text.ParseUint8Decimal | troubleshoot/semver.go:70-83 | Round trip: every byte's decimal text parses back to it. |
| Text.Split | troubleshoot/semver.go:66-69 | There is at least one part, no part contains the separator, and joining the parts gives back the input. |
| Text.SplitJoin | troubleshoot/semver.go:66-69 | Round trip: splitting a join of separator-free parts gives back the parts. |
| Text.IndexOf | troubleshoot/semver.go:60 | Finds the first occurrence, or none exactly when the character is absent. |
| Text.Fields | troubleshoot/rhp4.go:33-35 | Every field is non-empty and holds no whitespace. Its round trips are `FieldsJoin` and `FieldsSpaced`. |
| Text.FieldsSkipsSpace | troubleshoot/rhp4.go:33-35 | Leading whitespace of any length contributes no field. |
| Text.FieldsTakesWord | troubleshoot/rhp4.go:33-35 | A word without whitespace, followed by nothing or by whitespace, is read as one whole field. |
| Text.FieldsSpaced | troubleshoot/rhp4.go:33-35 | Words separated by whitespace runs of any length, with optional whitespace before and after, are read back as exactly those words. |
| Text.FieldsJoin | troubleshoot/rhp4.go:33-35 | Round trip: the fields of space-joined non-empty words without whitespace are those words. |
| Dns.AnswerTexts | internal/dns/dns.go:16-41 | One text per record, in order, when every record is A, AAAA or CNAME. The first record of any other type rejects the whole answer. |
| Dns.QueryRecord | internal/dns/dns.go:16-41 | A failed exchange is passed on. Otherwise the query succeeds exactly when every record is supported, with one text per record. |
| Dns.QueryNonEmpty | internal/dns/dns.go:91-121 | A query returns a non-empty answer, or NotFound exactly when the answer section was empty, or the query's own error. |
| Dns.QueryA | internal/dns/dns.go:101-110 | A success is the non-empty A answer. "Not found" is reported exactly when the A answer was empty. |
| Dns.QueryAAAA | internal/dns/dns.go:112-121 | A success is the non-empty AAAA answer. "Not found" is reported exactly when the AAAA answer was empty. |
| Dns.QueryCNAME | internal/dns/dns.go:91-99 | A success is the non-empty CNAME answer. "Not found" is reported exactly when the CNAME answer was empty. |
| Dns.ParsedIPs | internal/dns/dns.go:58-72 | Never yields more addresses than there were texts. |
| Dns.ParsedIPsMembers | internal/dns/dns.go:58-72 | An address is kept exactly when some text parses to it as an IP literal. |
| Dns.ParsedIPsExact | internal/dns/dns.go:58-72 | When every text is an IP literal, each is kept at its own position, repeats included. When none is, nothing is kept. |
| Dns.ParsedIPsAppend | internal/dns/dns.go:58-72 | The addresses of two answers appended are the addresses of the first followed by those of the second, so the A-derived addresses precede the AAAA-derived ones and nothing is merged or deduplicated. |
| Dns.Resolve | internal/dns/dns.go:43-86 | Past the depth bound it fails without asking anything. Otherwise the first question is always the A query for the host. |
| Dns.ResolveTargets | internal/dns/dns.go:78-84 | No targets give no addresses. Any failure is a wrapped CNAME failure. |
| Dns.TargetsStopAtFirstFailure | internal/dns/dns.go:78-84 | The first failing target aborts the rest. The error names that target and wraps its own error. The questions asked are those of the targets up to and including it, and none after. |
| Dns.TargetsAskEach | internal/dns/dns.go:78-84 | When every target resolves, each target's own questions are asked once, in CNAME order. |
| Dns.TargetsConcat | internal/dns/dns.go:78-84 | A successful resolution of the targets is the concatenation of each target's own addresses, in CNAME order, with nothing merged or dropped. |
| Dns.LookupIP | internal/dns/dns.go:124-136 | An IP literal is returned as it is, with no query. A success is never empty. "Not found" is reported exactly when the resolution succeeded with no address. |
| Dns.LookupIPResolves | internal/dns/dns.go:124-136 | For a name that is not an IP literal, the result is the resolution from depth 0 with limit 3, addresses, errors and questions unchanged, except that an empty success becomes "not found". |
| Dns.ResolveNeverNotFound | internal/dns/dns.go:43-86 | The recursion itself never reports "not found". |
| Dns.TargetsSucceedIffEach | internal/dns/dns.go:78-84 | Resolving the targets succeeds exactly when every single target resolves. |
| Dns.ResolveStopsAtFailedQuery | internal/dns/dns.go:48-77 | A failed A, AAAA or CNAME query ends the resolution, and no later question is asked. |
| Dns.ResolveOrder | internal/dns/dns.go:58-85 | The resolution succeeds exactly when every target resolves. Its addresses are then exactly the A-derived ones, then the AAAA-derived ones, then each target's own addresses in CNAME order. |
| Dns.EndlessChainFails | internal/dns/dns.go:43-84 | A chain of first CNAME targets longer than the remaining depth fails, and its innermost error is the depth limit. |
| Dns.ChainAtSelfAlias | internal/dns/dns.go:74-84 | A name whose first alias is itself starts a chain of every length. |
| Dns.SelfAliasFails | internal/dns/dns.go:43-46 | A name that is its own alias gives the depth-limit error from `LookupIP`, and not "not found". |
| Dns.TwoNameCycleFails | internal/dns/dns.go:43-46 | Two names that alias each other, in an otherwise empty zone, give the depth-limit error from `LookupIP`. |
| Dns.UnknownHostNotFound | internal/dns/dns_test.go:15-18 | A name with no A, AAAA or CNAME record is reported as "not found", after exactly those three queries. |
| Probe.CollectMembers | troubleshoot/rhp4.go:84-113 | A finding appears among the gathered warnings exactly when one of the checks raised it. |
| Probe.CollectClosed | troubleshoot/rhp4.go:84-113 | A property that every check's finding has holds of every gathered warning, so nothing but the checks' own findings gets in. |
| Probe.CollectPassing | troubleshoot/rhp4.go:84-113 | Checks that all pass give no warnings. |
| Probe.CollectFailing | troubleshoot/rhp4.go:84-113 | Checks that all fail give one warning each, at the check's own position. |
| Probe.CollectAscending | troubleshoot/rhp2.go:108-138 | Checks listed in rank order give warnings in strictly ascending rank. |
| Probe.Delta | troubleshoot/rhp4.go:24-29 | The result is the distance between the two heights. |
| Probe.DeltaSymmetric | troubleshoot/rhp4.go:24-29 | The distance is symmetric, and it is zero exactly when the heights are equal. |
| Probe.ParseRelease | troubleshoot/rhp4.go:31-40 | Parses the second whitespace-separated field when there are two or more, otherwise the whole text. Its promises are the lemmas `ParseReleaseRoundTrip`, `ParseReleaseSingleField`, `ParseReleaseSecondField`, `ParseReleaseWords`, `ParseReleaseSpaced` and `ParseReleaseUntrimmed`. |
| Probe.ParseReleaseWords | troubleshoot/rhp4.go:31-40 | Two or more words without whitespace, joined by single spaces (`hostd v2.0.1 (abc)`), are read from the second word. |
| Probe.ParseReleaseSpaced | troubleshoot/rhp4.go:31-40 | Two or more words without whitespace, separated by whitespace runs of any length and with optional whitespace around them, are read from the second word. |
| Probe.ParseReleaseRoundTrip | troubleshoot/rhp4.go:31-40 | Both `"<app> <version>"` and the bare version text parse to that version. |
| Probe.ParseReleaseSingleField | troubleshoot/rhp4.go:31-40 | A single space-free field is parsed as it is. |
| Probe.ParseReleaseSecondField | troubleshoot/rhp4.go:31-40 | In `<app> <version>`, with neither part holding whitespace, the second field is the one parsed. |
| Probe.ParseReleaseUntrimmed | troubleshoot/rhp4.go:31-40 | A release of one field with leading whitespace is parsed untrimmed, so it is rejected for its prefix. |
| Probe.ClassifyDial | troubleshoot/rhp4.go:42-70 | A DNS failure takes precedence over connection refused, which takes precedence over timeout. Anything else is a generic failure that keeps its detail. Each message is given exactly in its case. |
| Probe.CollateralCheck | troubleshoot/rhp4.go:96-102 | At most one finding, each exactly in its case. No collateral comes first, then collateral below storage, then collateral below double the storage price. None exactly when the collateral is at least double. |
| Probe.ReleaseCheck | troubleshoot/rhp4.go:108-113 | An "unknown version" exactly when the release does not parse, carrying the raw text. An "outdated version" exactly when it parses to something below the latest. |
| Probe.ReleaseCheckEmpty | troubleshoot/rhp4.go:108-110 | An empty release is reported as an unknown version. |
| Probe.ReleaseCheckCurrent | troubleshoot/rhp4.go:111-113 | A release at or above the latest, with or without an application prefix, draws no finding. |
| Rhp4.WarningsExact | troubleshoot/rhp4.go:84-102 | Each non-release warning is present exactly when its condition holds. |
| Rhp4.WarningsClosed | troubleshoot/rhp4.go:84-113 | Only the battery's own kinds of warning (not accepting contracts, no max collateral, short duration, collateral price) and the given release finding can appear. |
| Rhp4.ReleaseWarningExact | troubleshoot/rhp4.go:108-113 | The only release finding among the warnings is the one the release check gave. |
| Rhp4.WarningsOrdered | troubleshoot/rhp4.go:84-113 | The warnings come in the order the checks run, with no repeats. |
| Rhp4.CheckSettings | troubleshoot/rhp4.go:104-106 | There is at most one error: the tip-height error, present exactly when the host is three or more blocks off in either direction. |
| Rhp4.CheckSettingsWarnings | troubleshoot/rhp4.go:84-113 | The warnings are in check order, and each is present exactly when its condition holds, the release finding included. No warning of any other kind appears. |
| Rhp4.TestTransport | troubleshoot/rhp4.go:72-114 | A failed settings RPC records its error but still marks the probe scanned, stores the zero settings and runs every check. No other field changes. |
| Rhp4.TestSiaMux | troubleshoot/rhp4.go:116-141 | A rejected dial records only the classified dial error. A failed upgrade records the dial time, the connected flag and the SiaMux error, and changes nothing else: no handshake and no handshake time. Scanned exactly when the handshake happened. After a dial and an upgrade, the probe is the settings check on the record with both times, connected and handshake set. |
| Rhp4.TestQuic | troubleshoot/rhp4.go:143-166 | Connected and handshake are set together, and no dial time is recorded. A dial with no recent network activity is reported as a blocked UDP port. After a dial, the probe is the settings check on the record with the handshake time, connected and handshake set. |
| Rhp4.LookupIPs | troubleshoot/rhp4.go:168-181 | The system resolver's answer wins. Otherwise the fallback resolver's result or error is returned as it is. |
| Rhp4.TestRhp4 | troubleshoot/rhp4.go:183-215 | A bad address, a failed lookup and an unknown protocol each end the probe before any dial, with exactly one error. DNS "not found" is reported distinctly. |
| Rhp4.TestRhp4Dispatch | troubleshoot/rhp4.go:183-215 | Once the host resolves, a SiaMux or a QUIC address is probed on a record holding the address and the resolved addresses. Both dial the full address. The QUIC probe uses the port only in the blocked-UDP message. |
| Rhp4.ProbeErrors | troubleshoot/rhp4.go:183-215 | A single probe never raises a duplicate-protocol or multiple-versions error. |
| Rhp4.EveryCheckFails | troubleshoot/rhp4.go:84-113 | Settings that fail every check draw all five warnings, in check order. |
| Rhp4.EveryCheckPasses | troubleshoot/rhp4.go:84-113 | Settings that pass every check draw no warning. |
| Rhp4.ZeroSettingsFindings | troubleshoot/rhp4.go:76-113 | The zero settings on a synced host draw exactly the five warnings and no error. |
| Rhp4.FailedRpcChecksZeroSettings | troubleshoot/rhp4.go:76-113 | A failed settings RPC gives the RPC error followed by the five warnings of the zero settings. |
| Rhp4.HealthySettingsPass | troubleshoot/rhp4.go:84-113 | Healthy, synced settings running the latest release draw no warning and no error. |
| Rhp2.WarningsExact | troubleshoot/rhp2.go:108-131 | Each non-release RHP2 warning is present exactly when its condition holds, including the announced-address mismatch. |
| Rhp2.WarningsClosed | troubleshoot/rhp2.go:108-138 | Only the RHP2 battery's own kinds of warning and the given release finding can appear. |
| Rhp2.ReleaseWarningExact | troubleshoot/rhp2.go:133-138 | The only release finding is the one the release check gave. |
| Rhp2.WarningsOrdered | troubleshoot/rhp2.go:108-138 | The warnings come in check order, with no repeats. |
| Rhp2.CheckSettings | troubleshoot/rhp2.go:108-138 | At most six warnings, one per check. The exact content is `CheckSettingsWarnings`. |
| Rhp2.CheckSettingsWarnings | troubleshoot/rhp2.go:108-138 | The warnings are in check order, and each is present exactly when its condition holds. No warning of any other kind appears. |
| Rhp2.CheckPriceTable | troubleshoot/rhp2.go:172-186 | At most three warnings, one per check. The exact content is `CheckPriceTableWarnings`. |
| Rhp2.PriceWarningsExact | troubleshoot/rhp2.go:172-186 | Max collateral zero, each collateral finding and "behind consensus by n" are each present exactly when their check fails. |
| Rhp2.CheckPriceTableWarnings | troubleshoot/rhp2.go:172-186 | The price-table warnings are in check order, each present exactly when its check fails. "Behind consensus by n" is present exactly when the host is n blocks behind. No warning of any other kind appears. |
| Rhp2.TestRhp2 | troubleshoot/rhp2.go:62-139 | Ordered stages: dial, split, lookup, transport, settings. The first failure records its one error and ends the probe, and each failure's report is given in full. After a successful lookup, the resolved addresses are recorded, even if the transport then fails with "failed to create transport". The dial, handshake and scan times are those of their steps. The probe is scanned exactly when there is no error. Warnings come only from decoded settings. |
| Rhp2.TestRhp3 | troubleshoot/rhp2.go:141-187 | Ordered stages: dial, transport, price-table scan. The first failure records its one error, and the transport and scan failures' reports are given in full. The dial, handshake and scan times are those of their steps. The probe is scanned exactly when there is no error, with the price-table warnings. |
| Rhp2.AheadHostNotBehind | troubleshoot/rhp2.go:184-186 | A host at or ahead of the tip is never reported behind. |
| Rhp2.HealthySettingsPass | troubleshoot/rhp2.go:108-138 | Healthy settings at the announced address, running the latest release, draw no warning. |
| Rhp2.EveryCheckPasses | troubleshoot/rhp2.go:108-131 | Settings that pass every check draw no warning. |
| Rhp2.DialBeforeSplit | troubleshoot/rhp2.go:63-77 | An address that does not split is still dialed, and its parse error is recorded only after a successful dial. |
| Manager.CheckCooldown | troubleshoot/troubleshoot.go:137-143 | A host is refused exactly while its expiry lies ahead, and the refusal gives the time left. Any other host, including one never seen, gets an expiry ten seconds ahead. No other host's expiry changes. |
| Manager.CooldownStaysBounded | troubleshoot/troubleshoot.go:137-143 | With a clock that never goes back, expiries stay within one window, and a refused host never waits longer than ten seconds. |
| Manager.CooldownSecondCall | troubleshoot/troubleshoot.go:137-143 | A second test of a host is refused exactly within ten seconds of the first, with the exact time left. Other hosts are unaffected. |
| Manager.JoinHostPort | troubleshoot/troubleshoot.go:175 | The result ends in `:port`. An IPv6 host, one containing `:`, is bracketed. Any other host is kept as it is. |
| Manager.DeriveRhp3 | troubleshoot/troubleshoot.go:169-180 | RHP3 is probed only when RHP2 decoded settings. An unsplittable settings address records an error and skips the probe. Otherwise RHP3 is probed at the settings host joined with the SiaMux port. |
| Manager.ProbeAddresses | troubleshoot/troubleshoot.go:184-215 | One result per address, at the address's index. An address whose protocol was already seen gets only a duplicate-protocol error, and every other address is probed. |
| Manager.EveryAddressProbed | troubleshoot/troubleshoot.go:185-193 | The protocol set is never written, so every address is probed and no result carries a duplicate-protocol error. |
| Manager.Sticky | troubleshoot/troubleshoot.go:204-213 | One result per probe, and the rule only ever appends errors: every other field of every result is kept. |
| Manager.StickyFixed | troubleshoot/troubleshoot.go:204-213 | Once the version is fixed, each probe that finishes is checked against it, and the rest are untouched. |
| Manager.StickyFromStart | troubleshoot/troubleshoot.go:204-213 | The version is fixed by the first probe in completion order that decoded settings. |
| Manager.StickyClosedForm | troubleshoot/troubleshoot.go:204-213 | For any completion order, every probe whose release differs from the sticky version gets exactly one multiple-versions error, and every other probe is unchanged. |
| Manager.StickyVersionIsFirst | troubleshoot/troubleshoot.go:204-208 | The sticky version is the release of the first probe in completion order whose settings were decoded. |
| Manager.StickyFirstUnflagged | troubleshoot/troubleshoot.go:204-213 | The probe that fixes the version is never flagged. Any other probe with settings changes exactly when its release differs from the fixed one. |
| Manager.PermutationCovers | troubleshoot/troubleshoot.go:188-215 | A completion order that lists each probe once covers every probe. |
| Manager.FirstSettled | troubleshoot/troubleshoot.go:217-223 | Finds the lowest index with settings, or none when no result has settings. |
| Manager.SelectVersion | troubleshoot/troubleshoot.go:217-226 | With any RHP4 results, the version is the release of the lowest-index one with settings, or empty. Only with no RHP4 result does the RHP2 release count. |
| Manager.ProbeHost | troubleshoot/troubleshoot.go:184-215 | Each RHP4 result is that address's own probe, checked against the release of the first probe, in completion order, to decode settings. |
| Manager.TestHost | troubleshoot/troubleshoot.go:130-229 | A closed manager refuses with "shut down". A host on cooldown is refused with the time left. Otherwise only the cooldown changes, and RHP2 and RHP3 run exactly before the allow height. RHP2 probes the announced address with the latest release, and RHP3 is derived from that RHP2 result at the current height. There is one RHP4 result per address, and the version is chosen as above. |
| Manager.ReportedVersionMayBeFlagged | troubleshoot/troubleshoot.go:204-223 | The reported version can differ from the sticky one. The lowest-index result is reported even when a later address finished first and flagged it. |
| Manager.NewManager | troubleshoot/troubleshoot.go:239-261 | The release fetch, the release parse and the state fetch are tried in that order, and the first failure is returned with its own error. On success the manager starts open, with no cooldowns. |
| Manager.Close | troubleshoot/troubleshoot.go:232-235 | Closing sets only the stopped flag. |
| Manager.ClosedRefuses | troubleshoot/troubleshoot.go:131-134 | After `Close`, every test is refused. |
| Manager.Refresh | troubleshoot/troubleshoot.go:283-305 | A state tick replaces only the state. A release tick replaces only the release, and only when the fetch succeeded and the text parses. Failures leave the manager as it was. |
| Manager.RefreshAll | troubleshoot/troubleshoot.go:279-306 | A run of ticks never changes the cooldowns or the stopped flag. What it does to the release is `RefreshKeepsLastGood`. |
| Manager.RefreshKeepsLastGood | troubleshoot/troubleshoot.go:279-306 | After any run of ticks, the cached release is the last one fetched and parsed successfully, or the starting one. Cooldowns and the stopped flag are untouched. |

## Left out

- Concurrency: the goroutines, the `WaitGroup`, the mutex and the thread group.
  - The probes run one after another here.
  - The order in which the RHP4 probes finish is an input.
  - `sync.Once` becomes "the first finished probe with settings".
  - The RHP2 and RHP3 goroutine runs before the RHP4 loop. They touch disjoint parts of the result, so the order does not matter.
- Time: clocks, durations and elapsed times are values supplied with each outcome.
  - Cooldown expiries and `now` are integers in nanoseconds.
  - Timeouts and contexts are not modelled.
- The network: dials, handshakes, settings and price-table RPCs, QUIC and SiaMux are outcome records, and their internals are not modelled.
  - `net.SplitHostPort`, `net.ParseIP` and the DNS exchange are function parameters.
  - `net.LookupIP` (the system resolver) is an outcome.
  - The RHP2 probe uses only the system resolver, as the code does.
- `Manager.CheckCooldown`: an unseen host's zero `time.Time` is modelled as "no expiry". `time.Until` of that zero time is hugely negative, so the outcome is the same.
- Strings: Go strings are byte strings, and here they are `seq<char>`.
  - Each `char` stands for one decoded code point, so a multi-byte character is one element here but several bytes in Go.
  - Invalid UTF-8, which `strings.Fields` decodes to U+FFFD and never splits on, is not represented.
  - Byte offsets such as those of `strings.Index` become code-point positions.
- Currency values are unbounded naturals.
  - The 128-bit `types.Currency` is not modelled.
  - `Mul64(2)` would panic on overflow, which the model does not.
- Messages are datatype constructors, not formatted text.
  - `%q` quoting, `%s`/`%v` rendering of errors and `ip.String()` are not modelled.
  - Resolved addresses are the texts the lookup returned.
- Logging (zap) and the GitHub client.
  - The release and chain-state fetches are `Result` values given to `NewManager` and to the refresh ticks.
  - The two tickers become a sequence of ticks.
- The HTTP API, the client and `cmd/troubleshootd` are not part of this model.
- The RHP protocol packages under `internal/rhp` are not part of this model. They are only the transports the outcomes stand for.
- The documented behaviour says a second address with an already-seen protocol is rejected as a duplicate. The code never records a protocol, so `Manager.TestHost` probes every address, as the code does. `Manager.ProbeAddresses` keeps the duplicate branch for a non-empty set of seen protocols.

=== FILE: dns.dfy ===
/**
 * The cache-bypassing DNS resolver (internal/dns/dns.go): single-type queries
 * against one server, and a depth-bounded resolution that follows CNAME
 * records.
 *
 * The wire exchange with the server is an oracle `Exchange` from a question
 * to the answer section (or a transport error), and `net.ParseIP` followed by
 * `IP.String()` is an oracle `IpParser`. Every resolution also returns the
 * questions it asked, in order, so that "no further query is made" can be
 * stated.
 */
module Dns {
  import opened Wrappers

  /** Record types, per section 3.2.2 of RFC 1035 and section 2.1 of RFC 3596. */
  datatype RecordType = A | AAAA | CNAME

  datatype Question = Question(name: string, rtype: RecordType)

  /** One resource record of an answer section. */
  datatype Answer =
    | ARecord(ip: string)
    | AAAARecord(ip: string)
    | CNAMERecord(target: string)
    | OtherRecord(typeName: string)

  /** One exchange with the configured server: the answer section, or why the exchange failed. */
  type Exchange = Question -> Result<seq<Answer>, string>

  /** The canonical text of an IP literal, or None when the text is not one. */
  type IpParser = string -> Option<string>

  datatype QueryError =
    | ExchangeFailed(detail: string)
    | UnsupportedRecord(typeName: string)

  /** The resolver's errors, wrapped the way the source wraps them. */
  datatype DnsError =
    | NotFound                                         // "no such host"
    | DepthExceeded(maxDepth: int)                     // "maximum CNAME resolution depth reached"
    | Query(cause: QueryError)                         // a query error returned unwrapped
    | QueryFailed(rtype: RecordType, cause: QueryError) // "failed to query <type> records"
    | CnameFailed(target: string, inner: DnsError)     // "failed to resolve CNAME"

  /** `errors.Is(err, ErrNotFound)`: the error is NotFound or wraps it. */
  predicate IsNotFound(e: DnsError) {
    match e
    case NotFound => true
    case CnameFailed(_, inner) => IsNotFound(inner)
    case _ => false
  }

  /** The innermost error of a chain of CNAME failures. */
  function RootCause(e: DnsError): DnsError {
    match e
    case CnameFailed(_, inner) => RootCause(inner)
    case _ => e
  }

  /** Recursion limit used by `LookupIP`. */
  const MaxDepth: int := 3

  // ---------------------------------------------------------------------------
  // Single queries
  // ---------------------------------------------------------------------------

  predicate Supported(a: Answer) {
    !a.OtherRecord?
  }

  /** The text a supported record contributes: the address, or the CNAME target. */
  function AnswerText(a: Answer): Option<string> {
    match a
    case ARecord(ip) => Some(ip)
    case AAAARecord(ip) => Some(ip)
    case CNAMERecord(target) => Some(target)
    case OtherRecord(_) => None
  }

  /**
   * The texts of an answer section, one per record and in order; the first
   * record of any type other than A, AAAA or CNAME rejects the whole answer.
   */
  function AnswerTexts(answers: seq<Answer>): (r: Result<seq<string>, QueryError>)
    ensures r.Ok? <==> forall i :: 0 <= i < |answers| ==> Supported(answers[i])
    ensures r.Ok? ==> |r.value| == |answers|
    ensures r.Ok? ==> forall i :: 0 <= i < |answers| ==> AnswerText(answers[i]) == Some(r.value[i])
    ensures r.Err? ==> r.error.UnsupportedRecord?
    ensures r.Err? ==> exists i :: 0 <= i < |answers| && answers[i] == OtherRecord(r.error.typeName)
                          && forall j :: 0 <= j < i ==> Supported(answers[j])
  {
    if |answers| == 0 then Ok([])
    else
      match answers[0]
      case OtherRecord(t) => Err(UnsupportedRecord(t))
      case _ =>
        match AnswerTexts(answers[1..])
        case Err(e) =>
          assert forall j :: 1 <= j < |answers| ==> answers[j] == answers[1..][j - 1];
          Err(e)
        case Ok(rest) =>
          assert forall j :: 1 <= j < |answers| ==> answers[j] == answers[1..][j - 1];
          Ok([AnswerText(answers[0]).value] + rest)
  }

  /** `queryRecord`: ask one question and read the texts of its answer section. */
  function QueryRecord(ex: Exchange, q: Question): (r: Result<seq<string>, QueryError>)
    ensures ex(q).Err? ==> r == Err(ExchangeFailed(ex(q).error))
    ensures ex(q).Ok? ==> (r.Ok? <==> forall i :: 0 <= i < |ex(q).value| ==> Supported(ex(q).value[i]))
    ensures r.Ok? ==> |r.value| == |ex(q).value|
    ensures ex(q).Ok? ==> r == AnswerTexts(ex(q).value)
  {
    match ex(q)
    case Err(e) => Err(ExchangeFailed(e))
    case Ok(answers) => AnswerTexts(answers)
  }

  /**
   * `QueryA`, `QueryAAAA` and `QueryCNAME`: one query whose empty answer is
   * reported as NotFound; other errors are passed on unwrapped.
   */
  function QueryNonEmpty(ex: Exchange, name: string, rtype: RecordType): (r: Result<seq<string>, DnsError>)
    ensures r.Ok? ==> 0 < |r.value| && QueryRecord(ex, Question(name, rtype)) == Ok(r.value)
    ensures r == Err(NotFound) <==> QueryRecord(ex, Question(name, rtype)) == Ok([])
    ensures r.Err? && r.error != NotFound ==>
              QueryRecord(ex, Question(name, rtype)).Err?
              && r.error == Query(QueryRecord(ex, Question(name, rtype)).error)
  {
    match QueryRecord(ex, Question(name, rtype))
    case Err(e) => Err(Query(e))
    case Ok(texts) => if |texts| == 0 then Err(NotFound) else Ok(texts)
  }

  function QueryA(ex: Exchange, name: string): (r: Result<seq<string>, DnsError>)
    ensures r.Ok? ==> 0 < |r.value| && QueryRecord(ex, Question(name, A)) == Ok(r.value)
    ensures r == Err(NotFound) <==> QueryRecord(ex, Question(name, A)) == Ok([])
  {
    QueryNonEmpty(ex, name, A)
  }

  function QueryAAAA(ex: Exchange, name: string): (r: Result<seq<string>, DnsError>)
    ensures r.Ok? ==> 0 < |r.value| && QueryRecord(ex, Question(name, AAAA)) == Ok(r.value)
    ensures r == Err(NotFound) <==> QueryRecord(ex, Question(name, AAAA)) == Ok([])
  {
    QueryNonEmpty(ex, name, AAAA)
  }

  function QueryCNAME(ex: Exchange, name: string): (r: Result<seq<string>, DnsError>)
    ensures r.Ok? ==> 0 < |r.value| && QueryRecord(ex, Question(name, CNAME)) == Ok(r.value)
    ensures r == Err(NotFound) <==> QueryRecord(ex, Question(name, CNAME)) == Ok([])
  {
    QueryNonEmpty(ex, name, CNAME)
  }

  // ---------------------------------------------------------------------------
  // Recursive resolution
  // ---------------------------------------------------------------------------

  /**
   * The texts that are IP literals, in order and as canonical IP text; any
   * other text (a CNAME target inside an A answer, say) is skipped. Repeated
   * addresses are kept.
   */
  function ParsedIPs(parseIP: IpParser, texts: seq<string>): (ips: seq<string>)
    ensures |ips| <= |texts|
  {
    if |texts| == 0 then []
    else
      var rest := ParsedIPs(parseIP, texts[1..]);
      match parseIP(texts[0])
      case Some(ip) => [ip] + rest
      case None => rest
  }

  /** Exactly the IP literals among the texts are kept, as canonical IP text. */
  lemma {:induction false} ParsedIPsMembers(parseIP: IpParser, texts: seq<string>)
    ensures forall x :: x in ParsedIPs(parseIP, texts) <==> exists t :: t in texts && parseIP(t) == Some(x)
    decreases |texts|
  {
    if |texts| > 0 {
      ParsedIPsMembers(parseIP, texts[1..]);
      assert texts == [texts[0]] + texts[1..];
      forall x | x in ParsedIPs(parseIP, texts)
        ensures exists t :: t in texts && parseIP(t) == Some(x)
      {
        if x !in ParsedIPs(parseIP, texts[1..]) {
          assert parseIP(texts[0]) == Some(x);
        } else {
          var t :| t in texts[1..] && parseIP(t) == Some(x);
          assert t in texts;
        }
      }
    }
  }

  /**
   * When every text is an IP literal, every one is kept, in order and
   * repeats included; when none is, nothing is kept.
   */
  lemma {:induction false} ParsedIPsExact(parseIP: IpParser, texts: seq<string>)
    ensures (forall i :: 0 <= i < |texts| ==> parseIP(texts[i]).Some?) ==>
              |ParsedIPs(parseIP, texts)| == |texts| &&
              forall i :: 0 <= i < |texts| ==> ParsedIPs(parseIP, texts)[i] == parseIP(texts[i]).value
    ensures (forall i :: 0 <= i < |texts| ==> parseIP(texts[i]).None?) ==> ParsedIPs(parseIP, texts) == []
    decreases |texts|
  {
    if |texts| > 0 {
      ParsedIPsExact(parseIP, texts[1..]);
      assert forall i :: 1 <= i < |texts| ==> texts[i] == texts[1..][i - 1];
    }
  }

  /** The addresses of a concatenation are the addresses of each part, in order: nothing is merged or dropped. */
  lemma {:induction false} ParsedIPsAppend(parseIP: IpParser, t1: seq<string>, t2: seq<string>)
    ensures ParsedIPs(parseIP, t1 + t2) == ParsedIPs(parseIP, t1) + ParsedIPs(parseIP, t2)
    decreases |t1|
  {
    if |t1| > 0 {
      assert (t1 + t2)[0] == t1[0];
      assert (t1 + t2)[1..] == t1[1..] + t2;
      ParsedIPsAppend(parseIP, t1[1..], t2);
      var head := if parseIP(t1[0]).Some? then [parseIP(t1[0]).value] else [];
      assert ParsedIPs(parseIP, t1 + t2) == head + ParsedIPs(parseIP, t1[1..] + t2);
      assert ParsedIPs(parseIP, t1) == head + ParsedIPs(parseIP, t1[1..]);
    } else {
      assert t1 + t2 == t2;
    }
  }

  /** The concatenation of a list of address lists, in order. */
  function Concat(parts: seq<seq<string>>): (all: seq<string>)
    ensures |parts| == 1 ==> all == parts[0]
  {
    if |parts| == 0 then [] else parts[0] + Concat(parts[1..])
  }

  /** Addresses found (or the error), and every question asked, in order. */
  datatype Resolution = Resolution(result: Result<seq<string>, DnsError>, log: seq<Question>)

  /** Ranks recursion levels so that each CNAME hop strictly descends. */
  function Budget(depth: int, maxDepth: int): nat {
    if depth <= maxDepth then maxDepth - depth + 1 else 0
  }

  /**
   * `resolve`: A, then AAAA, then CNAME at `host`, then every CNAME target
   * one level deeper. Addresses come out as A-derived, AAAA-derived, then
   * each target's addresses in CNAME order. Past `maxDepth` it fails without
   * asking anything.
   */
  function Resolve(ex: Exchange, parseIP: IpParser, host: string, depth: int, maxDepth: int): (r: Resolution)
    ensures depth > maxDepth ==> r == Resolution(Err(DepthExceeded(maxDepth)), [])
    ensures depth <= maxDepth ==> 0 < |r.log| && r.log[0] == Question(host, A)
    decreases Budget(depth, maxDepth), 0
  {
    if depth > maxDepth then Resolution(Err(DepthExceeded(maxDepth)), [])
    else
      var qa, qaaaa, qcname := Question(host, A), Question(host, AAAA), Question(host, CNAME);
      match QueryRecord(ex, qa)
      case Err(e) => Resolution(Err(QueryFailed(A, e)), [qa])
      case Ok(a) =>
        match QueryRecord(ex, qaaaa)
        case Err(e) => Resolution(Err(QueryFailed(AAAA, e)), [qa, qaaaa])
        case Ok(aaaa) =>
          var direct := ParsedIPs(parseIP, a) + ParsedIPs(parseIP, aaaa);
          match QueryRecord(ex, qcname)
          case Err(e) => Resolution(Err(QueryFailed(CNAME, e)), [qa, qaaaa, qcname])
          case Ok(targets) =>
            var via := ResolveTargets(ex, parseIP, targets, depth + 1, maxDepth);
            var log := [qa, qaaaa, qcname] + via.log;
            match via.result
            case Err(e) => Resolution(Err(e), log)
            case Ok(ips) => Resolution(Ok(direct + ips), log)
  }

  /** Resolves the CNAME targets in order; the first failure aborts the rest. */
  function ResolveTargets(ex: Exchange, parseIP: IpParser, targets: seq<string>, depth: int, maxDepth: int): (r: Resolution)
    ensures targets == [] ==> r == Resolution(Ok([]), [])
    ensures r.result.Err? ==> r.result.error.CnameFailed?
    decreases Budget(depth, maxDepth), |targets|
  {
    if |targets| == 0 then Resolution(Ok([]), [])
    else
      var first := Resolve(ex, parseIP, targets[0], depth, maxDepth);
      match first.result
      case Err(e) => Resolution(Err(CnameFailed(targets[0], e)), first.log)
      case Ok(ips) =>
        var rest := ResolveTargets(ex, parseIP, targets[1..], depth, maxDepth);
        match rest.result
        case Err(e) => Resolution(Err(e), first.log + rest.log)
        case Ok(more) => Resolution(Ok(ips + more), first.log + rest.log)
  }

  /**
   * `LookupIP`: an IP literal is returned as it is, with no query; anything
   * else is resolved from depth 0 with limit `MaxDepth`, and an empty
   * successful result becomes NotFound.
   */
  function LookupIP(ex: Exchange, parseIP: IpParser, host: string): (r: Resolution)
    ensures parseIP(host).Some? ==> r == Resolution(Ok([parseIP(host).value]), [])
    ensures r.result.Ok? ==> 0 < |r.result.value|
    ensures r.result.Err? && IsNotFound(r.result.error) <==>
              parseIP(host).None? && Resolve(ex, parseIP, host, 0, MaxDepth).result == Ok([])
  {
    match parseIP(host)
    case Some(ip) => Resolution(Ok([ip]), [])
    case None =>
      var res := Resolve(ex, parseIP, host, 0, MaxDepth);
      ResolveNeverNotFound(ex, parseIP, host, 0, MaxDepth);
      match res.result
      case Err(e) => res
      case Ok(ips) => if |ips| == 0 then Resolution(Err(NotFound), res.log) else res
  }

  /**
   * For a name that is not an IP literal, `LookupIP` is the resolution from
   * depth 0 with limit `MaxDepth`, its addresses and errors unchanged, except
   * that an empty success becomes NotFound after the same questions.
   */
  lemma LookupIPResolves(ex: Exchange, parseIP: IpParser, host: string)
    requires parseIP(host).None?
    ensures var res := Resolve(ex, parseIP, host, 0, MaxDepth);
      && (res.result == Ok([]) ==> LookupIP(ex, parseIP, host) == Resolution(Err(NotFound), res.log))
      && (res.result != Ok([]) ==> LookupIP(ex, parseIP, host) == res)
  {
  }

  // ---------------------------------------------------------------------------
  // Properties of the resolution
  // ---------------------------------------------------------------------------

  /** The recursion itself never reports NotFound: only `LookupIP` does, for an empty union. */
  lemma {:induction false} ResolveNeverNotFound(ex: Exchange, parseIP: IpParser, host: string, depth: int, maxDepth: int)
    ensures var r := Resolve(ex, parseIP, host, depth, maxDepth);
      r.result.Err? ==> !IsNotFound(r.result.error)
    decreases Budget(depth, maxDepth), 0
  {
    if depth <= maxDepth {
      var qa, qaaaa, qcname := Question(host, A), Question(host, AAAA), Question(host, CNAME);
      if QueryRecord(ex, qa).Ok? && QueryRecord(ex, qaaaa).Ok? && QueryRecord(ex, qcname).Ok? {
        TargetsNeverNotFound(ex, parseIP, QueryRecord(ex, qcname).value, depth + 1, maxDepth);
      }
    }
  }

  lemma {:induction false} TargetsNeverNotFound(ex: Exchange, parseIP: IpParser, targets: seq<string>, depth: int, maxDepth: int)
    ensures var r := ResolveTargets(ex, parseIP, targets, depth, maxDepth);
      r.result.Err? ==> !IsNotFound(r.result.error)
    decreases Budget(depth, maxDepth), |targets|
  {
    if |targets| > 0 {
      ResolveNeverNotFound(ex, parseIP, targets[0], depth, maxDepth);
      TargetsNeverNotFound(ex, parseIP, targets[1..], depth, maxDepth);
    }
  }

  /** Resolving the targets succeeds exactly when every single target resolves. */
  lemma {:induction false} TargetsSucceedIffEach(ex: Exchange, parseIP: IpParser, targets: seq<string>, depth: int, maxDepth: int)
    ensures ResolveTargets(ex, parseIP, targets, depth, maxDepth).result.Ok? <==>
              forall i :: 0 <= i < |targets| ==> Resolve(ex, parseIP, targets[i], depth, maxDepth).result.Ok?
    decreases |targets|
  {
    if |targets| > 0 {
      TargetsSucceedIffEach(ex, parseIP, targets[1..], depth, maxDepth);
      assert forall i :: 1 <= i < |targets| ==> targets[i] == targets[1..][i - 1];
    }
  }

  /** A query error stops the resolution at once: no later question is asked. */
  lemma ResolveStopsAtFailedQuery(ex: Exchange, parseIP: IpParser, host: string, depth: int, maxDepth: int)
    requires depth <= maxDepth
    ensures var qa, qaaaa, qcname := Question(host, A), Question(host, AAAA), Question(host, CNAME);
      var r := Resolve(ex, parseIP, host, depth, maxDepth);
      && (QueryRecord(ex, qa).Err? ==>
            r == Resolution(Err(QueryFailed(A, QueryRecord(ex, qa).error)), [qa]))
      && (QueryRecord(ex, qa).Ok? && QueryRecord(ex, qaaaa).Err? ==>
            r == Resolution(Err(QueryFailed(AAAA, QueryRecord(ex, qaaaa).error)), [qa, qaaaa]))
      && (QueryRecord(ex, qa).Ok? && QueryRecord(ex, qaaaa).Ok? && QueryRecord(ex, qcname).Err? ==>
            r == Resolution(Err(QueryFailed(CNAME, QueryRecord(ex, qcname).error)), [qa, qaaaa, qcname]))
  {
  }

  /**
   * On success the A-derived addresses come first, then the AAAA-derived
   * ones, then the targets' addresses; a single failing target fails the
   * whole resolution and the addresses already found are dropped.
   */
  lemma ResolveOrder(ex: Exchange, parseIP: IpParser, host: string, depth: int, maxDepth: int)
    requires depth <= maxDepth
    requires QueryRecord(ex, Question(host, A)).Ok?
    requires QueryRecord(ex, Question(host, AAAA)).Ok?
    requires QueryRecord(ex, Question(host, CNAME)).Ok?
    ensures var targets := QueryRecord(ex, Question(host, CNAME)).value;
      var direct := ParsedIPs(parseIP, QueryRecord(ex, Question(host, A)).value)
                    + ParsedIPs(parseIP, QueryRecord(ex, Question(host, AAAA)).value);
      var r := Resolve(ex, parseIP, host, depth, maxDepth);
      var via := ResolveTargets(ex, parseIP, targets, depth + 1, maxDepth);
      && (r.result.Ok? <==> forall i :: 0 <= i < |targets| ==> Resolve(ex, parseIP, targets[i], depth + 1, maxDepth).result.Ok?)
      && (r.result.Ok? ==> r.result.value == direct + via.result.value)
      && (r.result.Ok? ==>
            (r.result.value == direct + Concat(seq(|targets|, i requires 0 <= i < |targets| =>
                                                     AddressesOf(ex, parseIP, targets[i], depth + 1, maxDepth)))))
  {
    var targets := QueryRecord(ex, Question(host, CNAME)).value;
    TargetsSucceedIffEach(ex, parseIP, targets, depth + 1, maxDepth);
    if ResolveTargets(ex, parseIP, targets, depth + 1, maxDepth).result.Ok? {
      TargetsConcat(ex, parseIP, targets, depth + 1, maxDepth);
    }
  }

  /** The addresses one name resolves to at a given depth; none when it fails. */
  function AddressesOf(ex: Exchange, parseIP: IpParser, name: string, depth: int, maxDepth: int): seq<string> {
    var r := Resolve(ex, parseIP, name, depth, maxDepth).result;
    if r.Ok? then r.value else []
  }

  /** A successful resolution of the targets is each target's addresses, in CNAME order, with nothing merged. */
  lemma {:induction false} TargetsConcat(ex: Exchange, parseIP: IpParser, targets: seq<string>, depth: int, maxDepth: int)
    requires ResolveTargets(ex, parseIP, targets, depth, maxDepth).result.Ok?
    ensures ResolveTargets(ex, parseIP, targets, depth, maxDepth).result.value ==
      Concat(seq(|targets|, i requires 0 <= i < |targets| => AddressesOf(ex, parseIP, targets[i], depth, maxDepth)))
    decreases |targets|
  {
    if |targets| > 0 {
      var parts := seq(|targets|, i requires 0 <= i < |targets| => AddressesOf(ex, parseIP, targets[i], depth, maxDepth));
      var rest := targets[1..];
      var restParts := seq(|rest|, i requires 0 <= i < |rest| => AddressesOf(ex, parseIP, rest[i], depth, maxDepth));
      var first := Resolve(ex, parseIP, targets[0], depth, maxDepth).result;
      var more := ResolveTargets(ex, parseIP, rest, depth, maxDepth).result;
      assert first.Ok? && more.Ok?;
      assert ResolveTargets(ex, parseIP, targets, depth, maxDepth).result.value == first.value + more.value;
      TargetsConcat(ex, parseIP, rest, depth, maxDepth);
      assert parts[1..] == restParts by {
        forall i | 0 <= i < |rest| ensures parts[1..][i] == restParts[i] {
          assert rest[i] == targets[i + 1];
        }
      }
      assert parts[0] == first.value;
      assert Concat(parts) == parts[0] + Concat(restParts);
    }
  }

  /** The questions each name's own resolution asks, one name after the other. */
  function LogsOf(ex: Exchange, parseIP: IpParser, names: seq<string>, depth: int, maxDepth: int): seq<Question> {
    if |names| == 0 then []
    else Resolve(ex, parseIP, names[0], depth, maxDepth).log + LogsOf(ex, parseIP, names[1..], depth, maxDepth)
  }

  /**
   * The first failing target aborts the rest: the error names that target
   * and wraps its own error, and the questions asked are those of the targets
   * up to and including it, none after.
   */
  lemma {:induction false} TargetsStopAtFirstFailure(ex: Exchange, parseIP: IpParser, targets: seq<string>, depth: int, maxDepth: int, i: nat)
    requires i < |targets|
    requires forall j :: 0 <= j < i ==> Resolve(ex, parseIP, targets[j], depth, maxDepth).result.Ok?
    requires Resolve(ex, parseIP, targets[i], depth, maxDepth).result.Err?
    ensures ResolveTargets(ex, parseIP, targets, depth, maxDepth) ==
      Resolution(Err(CnameFailed(targets[i], Resolve(ex, parseIP, targets[i], depth, maxDepth).result.error)),
                 LogsOf(ex, parseIP, targets[..i + 1], depth, maxDepth))
    decreases i
  {
    var first := Resolve(ex, parseIP, targets[0], depth, maxDepth);
    if i == 0 {
      assert targets[..1][1..] == [];
    } else {
      var rest := targets[1..];
      assert forall j :: 0 <= j < i - 1 ==> rest[j] == targets[j + 1];
      assert rest[i - 1] == targets[i];
      TargetsStopAtFirstFailure(ex, parseIP, rest, depth, maxDepth, i - 1);
      assert first.result.Ok?;
      assert targets[..i + 1][0] == targets[0];
      assert targets[..i + 1][1..] == rest[..i];
    }
  }

  /** When every target resolves, each target's questions are asked once, in CNAME order. */
  lemma {:induction false} TargetsAskEach(ex: Exchange, parseIP: IpParser, targets: seq<string>, depth: int, maxDepth: int)
    requires ResolveTargets(ex, parseIP, targets, depth, maxDepth).result.Ok?
    ensures ResolveTargets(ex, parseIP, targets, depth, maxDepth).log == LogsOf(ex, parseIP, targets, depth, maxDepth)
    decreases |targets|
  {
    if |targets| > 0 {
      assert Resolve(ex, parseIP, targets[0], depth, maxDepth).result.Ok?;
      TargetsAskEach(ex, parseIP, targets[1..], depth, maxDepth);
    }
  }

  /** A name that answers all three queries and has at least one CNAME target. */
  predicate AliasAt(ex: Exchange, name: string) {
    && QueryRecord(ex, Question(name, A)).Ok?
    && QueryRecord(ex, Question(name, AAAA)).Ok?
    && QueryRecord(ex, Question(name, CNAME)).Ok?
    && 0 < |QueryRecord(ex, Question(name, CNAME)).value|
  }

  /** Following the first CNAME target from `name`, `n` aliases in a row. */
  predicate ChainFrom(ex: Exchange, name: string, n: nat)
    decreases n
  {
    n == 0 || (AliasAt(ex, name) && ChainFrom(ex, QueryRecord(ex, Question(name, CNAME)).value[0], n - 1))
  }

  /**
   * A CNAME chain longer than the remaining depth (a cycle, for one) is cut
   * off by the depth bound: the resolution fails, and the innermost error is
   * the depth limit.
   */
  lemma {:induction false} EndlessChainFails(ex: Exchange, parseIP: IpParser, host: string, depth: int, maxDepth: int)
    requires ChainFrom(ex, host, Budget(depth, maxDepth))
    ensures var r := Resolve(ex, parseIP, host, depth, maxDepth);
      r.result.Err? && RootCause(r.result.error) == DepthExceeded(maxDepth)
    decreases Budget(depth, maxDepth)
  {
    if depth <= maxDepth {
      assert Budget(depth + 1, maxDepth) == Budget(depth, maxDepth) - 1;
      assert AliasAt(ex, host);
      var targets := QueryRecord(ex, Question(host, CNAME)).value;
      EndlessChainFails(ex, parseIP, targets[0], depth + 1, maxDepth);
      var first := Resolve(ex, parseIP, targets[0], depth + 1, maxDepth);
      var via := ResolveTargets(ex, parseIP, targets, depth + 1, maxDepth);
      assert via.result == Err(CnameFailed(targets[0], first.result.error));
    }
  }

  /** A name that is its own alias yields the depth-limit error from `LookupIP`, not NotFound. */
  lemma SelfAliasFails(ex: Exchange, parseIP: IpParser, host: string)
    requires forall q :: ex(q) == (if q.rtype == CNAME then Ok([CNAMERecord(q.name)]) else Ok([]))
    requires parseIP(host).None?
    ensures LookupIP(ex, parseIP, host).result.Err?
    ensures RootCause(LookupIP(ex, parseIP, host).result.error) == DepthExceeded(MaxDepth)
    ensures !IsNotFound(LookupIP(ex, parseIP, host).result.error)
  {
    assert ex(Question(host, CNAME)) == Ok([CNAMERecord(host)]);
    assert ex(Question(host, A)) == Ok([]);
    assert ex(Question(host, AAAA)) == Ok([]);
    assert QueryRecord(ex, Question(host, CNAME)).value[0] == host;
    ChainAtSelfAlias(ex, host, Budget(0, MaxDepth));
    EndlessChainFails(ex, parseIP, host, 0, MaxDepth);
    ResolveNeverNotFound(ex, parseIP, host, 0, MaxDepth);
  }

  /** A name whose first alias is itself starts a chain of every length. */
  lemma {:induction false} ChainAtSelfAlias(ex: Exchange, host: string, n: nat)
    requires AliasAt(ex, host) && QueryRecord(ex, Question(host, CNAME)).value[0] == host
    ensures ChainFrom(ex, host, n)
    decreases n
  {
    if n > 0 {
      ChainAtSelfAlias(ex, host, n - 1);
    }
  }

  /**
   * Two names that alias each other, in a zone that holds nothing else, also
   * end in the depth-limit error from `LookupIP`.
   */
  lemma TwoNameCycleFails(ex: Exchange, parseIP: IpParser, a: string, b: string)
    requires a != b
    requires forall q :: ex(q) == (if q.rtype == CNAME && q.name == a then Ok([CNAMERecord(b)])
                                   else if q.rtype == CNAME && q.name == b then Ok([CNAMERecord(a)])
                                   else Ok([]))
    requires parseIP(a).None?
    ensures LookupIP(ex, parseIP, a).result.Err?
    ensures RootCause(LookupIP(ex, parseIP, a).result.error) == DepthExceeded(MaxDepth)
  {
    assert ex(Question(a, CNAME)) == Ok([CNAMERecord(b)]);
    assert ex(Question(b, CNAME)) == Ok([CNAMERecord(a)]);
    assert ex(Question(a, A)) == Ok([]) && ex(Question(a, AAAA)) == Ok([]);
    assert ex(Question(b, A)) == Ok([]) && ex(Question(b, AAAA)) == Ok([]);
    assert AliasAt(ex, a) && QueryRecord(ex, Question(a, CNAME)).value[0] == b;
    assert AliasAt(ex, b) && QueryRecord(ex, Question(b, CNAME)).value[0] == a;
    assert ChainFrom(ex, a, 0);
    assert ChainFrom(ex, b, 1);
    assert ChainFrom(ex, a, 2);
    assert ChainFrom(ex, b, 3);
    assert ChainFrom(ex, a, 4);
    EndlessChainFails(ex, parseIP, a, 0, MaxDepth);
    ResolveNeverNotFound(ex, parseIP, a, 0, MaxDepth);
  }

  /**
   * A name that is not an IP literal and has no A, AAAA or CNAME record is
   * reported as not found, after exactly the three queries.
   */
  lemma UnknownHostNotFound(ex: Exchange, parseIP: IpParser, host: string)
    requires ex(Question(host, A)) == Ok([]) && ex(Question(host, AAAA)) == Ok([])
    requires ex(Question(host, CNAME)) == Ok([])
    requires parseIP(host).None?
    ensures LookupIP(ex, parseIP, host) ==
      Resolution(Err(NotFound), [Question(host, A), Question(host, AAAA), Question(host, CNAME)])
  {
    assert QueryRecord(ex, Question(host, A)) == Ok([]);
    assert QueryRecord(ex, Question(host, AAAA)) == Ok([]);
    assert QueryRecord(ex, Question(host, CNAME)) == Ok([]);
    assert ParsedIPs(parseIP, []) == [];
    var qs := [Question(host, A), Question(host, AAAA), Question(host, CNAME)];
    assert ResolveTargets(ex, parseIP, [], 1, MaxDepth) == Resolution(Ok([]), []);
    assert qs + [] == qs;
    var r := Resolve(ex, parseIP, host, 0, MaxDepth);
    assert r.log == qs;
    assert r.result.Ok?;
    assert r.result.value == [];
    assert Resolve(ex, parseIP, host, 0, MaxDepth) ==
      Resolution(Ok([]), [Question(host, A), Question(host, AAAA), Question(host, CNAME)]);
  }
}

=== FILE: manager.dfy ===
/**
 * The sequential part of the manager (troubleshoot/troubleshoot.go): the
 * per-host cooldown, the hardfork gating of the RHP2 and RHP3 probes, the
 * RHP3 address derivation, one RHP4 probe per announced address, the sticky
 * version rule applied in a given completion order, the choice of the
 * reported version, and the background refresh of the cached state.
 *
 * The probes run concurrently in the source; here they run one after the
 * other, and the order in which the RHP4 probes finish is an input.
 */
module Manager {
  import opened Wrappers
  import opened Versions
  import opened Probe
  import Rhp4
  import Rhp2

  type PublicKey = string

  /** A host as the chain announces it. */
  datatype Host = Host(publicKey: PublicKey, rhp2NetAddress: string, rhp4NetAddresses: seq<Rhp4.NetAddress>)

  /** The part of the consensus state the tests read: the tip height and the v2 hardfork's allow height. */
  datatype ChainState = ChainState(height: nat, allowHeight: nat)

  /**
   * The manager's state: whether it has been closed, the cached latest
   * release and chain state, and each host's cooldown expiry, in nanoseconds.
   */
  datatype Manager = Manager(stopped: bool, latestRelease: SemVer, state: ChainState, cooldown: map<PublicKey, int>)

  /** Ten seconds, in nanoseconds. */
  const CooldownWindow: int := 10 * 1000000000

  datatype TestError =
    | ShutDown                 // the manager's thread group is stopped
    | OnCooldown(remaining: int)  // "host is on cooldown, please try again in %s"

  /** What one host test reports. The RHP2 and RHP3 results are absent after the hardfork. */
  datatype HostResult = HostResult(
    publicKey: PublicKey,
    version: string,
    rhp2: Option<Rhp2.Report2>,
    rhp3: Option<Rhp2.Report3>,
    rhp4: seq<Rhp4.Report>)

  /**
   * The outcomes of every network step of one host test, and the order in
   * which the RHP4 probes finish (a permutation of their indices).
   */
  datatype HostOutcomes = HostOutcomes(
    rhp2: Rhp2.Outcomes2,
    rhp3: Rhp2.Outcomes3,
    rhp4: seq<Rhp4.Outcomes>,
    completion: seq<nat>)

  // ---------------------------------------------------------------------------
  // Cooldown
  // ---------------------------------------------------------------------------

  /**
   * The cooldown check-and-set: a host whose expiry lies after `now` is
   * refused with the time left; any other host, including one never seen,
   * gets a new expiry ten seconds from `now`.
   */
  function CheckCooldown(cooldown: map<PublicKey, int>, key: PublicKey, now: int): (r: Result<map<PublicKey, int>, int>)
    ensures r.Err? <==> key in cooldown && cooldown[key] > now
    ensures r.Err? ==> r.error > 0 && now + r.error == cooldown[key]
    ensures r.Ok? ==> r.value.Keys == cooldown.Keys + {key} && r.value[key] == now + CooldownWindow
    ensures r.Ok? ==> forall k :: k in cooldown && k != key ==> r.value[k] == cooldown[k]
  {
    if key in cooldown && cooldown[key] > now then Err(cooldown[key] - now)
    else Ok(cooldown[key := now + CooldownWindow])
  }

  /** Every expiry lies at most one window after `now`. */
  predicate ExpiriesWithin(cooldown: map<PublicKey, int>, now: int) {
    forall k :: k in cooldown ==> cooldown[k] <= now + CooldownWindow
  }

  /**
   * With a clock that does not go backwards, expiries never lie more than one
   * window ahead, so a refused host never waits longer than the window.
   */
  lemma CooldownStaysBounded(cooldown: map<PublicKey, int>, key: PublicKey, now: int, later: int)
    requires ExpiriesWithin(cooldown, now) && now <= later
    ensures var r := CheckCooldown(cooldown, key, later);
      && (r.Err? ==> 0 < r.error <= CooldownWindow)
      && (r.Ok? ==> ExpiriesWithin(r.value, later))
  {
  }

  /**
   * A second test of the same host is refused exactly while the window
   * opened by the first one lasts; other hosts are not affected.
   */
  lemma CooldownSecondCall(cooldown: map<PublicKey, int>, key: PublicKey, now: int, later: int, other: PublicKey)
    requires CheckCooldown(cooldown, key, now).Ok?
    requires other != key
    ensures var after := CheckCooldown(cooldown, key, now).value;
      && (CheckCooldown(after, key, later).Err? <==> later < now + CooldownWindow)
      && (later < now + CooldownWindow ==> CheckCooldown(after, key, later).error == now + CooldownWindow - later)
      && CheckCooldown(after, other, later).Err? == CheckCooldown(cooldown, other, later).Err?
  {
  }

  // ---------------------------------------------------------------------------
  // RHP3 address derivation
  // ---------------------------------------------------------------------------

  /** `net.JoinHostPort`: a host holding a colon (an IPv6 literal) is bracketed. */
  function JoinHostPort(host: string, port: string): (s: string)
    ensures |s| > |port| && s[|s| - |port| - 1..] == ":" + port
    ensures ':' in host ==> |s| == |host| + |port| + 3 && s[0] == '[' && s[1..|host| + 1] == host && s[|host| + 1] == ']'
    ensures ':' !in host ==> |s| == |host| + |port| + 1 && s[..|host|] == host
  {
    if ':' in host then
      var s := "[" + host + "]:" + port;
      assert s[1..|host| + 1] == host;
      assert s[|s| - |port| - 1..] == ":" + port;
      s
    else
      var s := host + ":" + port;
      assert s[..|host|] == host;
      assert s[|s| - |port| - 1..] == ":" + port;
      s
  }

  /**
   * The RHP3 probe, run only when the RHP2 probe decoded settings: its
   * address is the host of the settings' net address joined with their
   * SiaMux port. A net address that does not split records an error and
   * skips the probe.
   */
  function DeriveRhp3(env: Env, rhp2: Rhp2.Report2, height: nat, out: Rhp2.Outcomes3): (r: Rhp2.Report3)
    ensures r.connected ==> rhp2.settings.Some?
    ensures rhp2.settings.None? ==> r == Rhp2.Blank3
    ensures rhp2.settings.Some? && env.splitHostPort(rhp2.settings.value.netAddress).Err? ==>
              var a := rhp2.settings.value.netAddress;
              r == Rhp2.Blank3.(errors := [BadNetAddress(a, env.splitHostPort(a).error)])
    ensures rhp2.settings.Some? && env.splitHostPort(rhp2.settings.value.netAddress).Ok? ==>
              var s := rhp2.settings.value;
              r == Rhp2.TestRhp3(JoinHostPort(env.splitHostPort(s.netAddress).value.host, s.siaMuxPort), height, out)
  {
    match rhp2.settings
    case None => Rhp2.Blank3
    case Some(s) =>
      match env.splitHostPort(s.netAddress)
      case Err(d) => Rhp2.Blank3.(errors := [BadNetAddress(s.netAddress, d)])
      case Ok(hp) => Rhp2.TestRhp3(JoinHostPort(hp.host, s.siaMuxPort), height, out)
  }

  // ---------------------------------------------------------------------------
  // RHP4 probes
  // ---------------------------------------------------------------------------

  /**
   * The RHP4 result for one address: an address whose protocol is in `seen`
   * is not probed and gets only a duplicate-protocol error.
   */
  function ProbeAddress(env: Env, latest: SemVer, height: nat, addr: Rhp4.NetAddress,
                        out: Rhp4.Outcomes, seen: set<Rhp4.Protocol>): Rhp4.Report
  {
    if addr.protocol in seen then Rhp4.Blank.(errors := [DuplicateProtocol(addr.protocol)])
    else Rhp4.TestRhp4(env, latest, height, addr, out)
  }

  /**
   * One RHP4 result per address, at the address's index. An address whose
   * protocol is in `seen` is not probed and gets only a duplicate-protocol
   * error; as in the source, `seen` is read but never extended.
   */
  function ProbeAddresses(env: Env, latest: SemVer, height: nat, addrs: seq<Rhp4.NetAddress>,
                          outs: seq<Rhp4.Outcomes>, seen: set<Rhp4.Protocol>): (rs: seq<Rhp4.Report>)
    requires |outs| == |addrs|
    ensures |rs| == |addrs|
    ensures forall i :: 0 <= i < |addrs| && addrs[i].protocol !in seen ==>
              rs[i] == Rhp4.TestRhp4(env, latest, height, addrs[i], outs[i])
    ensures forall i :: 0 <= i < |addrs| && addrs[i].protocol in seen ==>
              rs[i] == Rhp4.Blank.(errors := [DuplicateProtocol(addrs[i].protocol)])
  {
    seq(|addrs|, i requires 0 <= i < |addrs| => ProbeAddress(env, latest, height, addrs[i], outs[i], seen))
  }

  /**
   * As written, the set of protocols seen stays empty, so every address is
   * probed, even two announcing the same protocol, and no result carries a
   * duplicate-protocol error.
   */
  lemma EveryAddressProbed(env: Env, latest: SemVer, height: nat, addrs: seq<Rhp4.NetAddress>, outs: seq<Rhp4.Outcomes>)
    requires |outs| == |addrs|
    ensures var rs := ProbeAddresses(env, latest, height, addrs, outs, {});
      && (forall i :: 0 <= i < |addrs| ==> rs[i] == Rhp4.TestRhp4(env, latest, height, addrs[i], outs[i]))
      && (forall i :: 0 <= i < |addrs| ==> forall m :: m in rs[i].errors ==> !Rhp4.ManagerError(m))
  {
    var rs := ProbeAddresses(env, latest, height, addrs, outs, {});
    forall i | 0 <= i < |addrs|
      ensures forall m :: m in rs[i].errors ==> !Rhp4.ManagerError(m)
    {
      Rhp4.ProbeErrors(env, latest, height, addrs[i], outs[i]);
    }
  }

  // ---------------------------------------------------------------------------
  // The sticky version
  // ---------------------------------------------------------------------------

  /** The mismatch check one finished probe runs against the sticky version `v`. */
  function Mark(r: Rhp4.Report, v: string): (m: Rhp4.Report)
    ensures m.settings == r.settings && m.warnings == r.warnings && m.netAddress == r.netAddress
    ensures r.settings.Some? && r.settings.value.release != v ==>
              m.errors == r.errors + [MultipleVersions(v, r.settings.value.release)]
    ensures r.settings.None? || r.settings.value.release == v ==> m == r
  {
    if r.settings.Some? && r.settings.value.release != v then
      r.(errors := r.errors + [MultipleVersions(v, r.settings.value.release)])
    else r
  }

  /** Every entry of `order` is an index below `n`. */
  predicate Within(order: seq<nat>, n: nat) {
    forall i :: 0 <= i < |order| ==> order[i] < n
  }

  predicate Distinct(order: seq<nat>) {
    forall i, j :: 0 <= i < j < |order| ==> order[i] != order[j]
  }

  /** `order` lists each index below `n` exactly once. */
  predicate IsPermutation(order: seq<nat>, n: nat) {
    |order| == n && Distinct(order) && Within(order, n)
  }

  /**
   * The sticky version rule, following the order in which the probes
   * finish: the first finished probe with settings fixes the version (the
   * `sync.Once`), and every probe with settings is then checked against it.
   */
  function Sticky(results: seq<Rhp4.Report>, order: seq<nat>, version: Option<string>): (rs: seq<Rhp4.Report>)
    requires Within(order, |results|)
    ensures |rs| == |results|
    ensures forall j :: 0 <= j < |results| ==>
              rs[j].(errors := results[j].errors) == results[j] && results[j].errors <= rs[j].errors
    decreases |order|
  {
    if order == [] then results
    else
      var i := order[0];
      var r := results[i];
      if r.settings.None? then Sticky(results, order[1..], version)
      else
        var v := if version.Some? then version.value else r.settings.value.release;
        Sticky(results[i := Mark(r, v)], order[1..], Some(v))
  }

  /** The release of the first probe, in `order`, that decoded settings; "" when none did. */
  function StickyVersion(results: seq<Rhp4.Report>, order: seq<nat>): string
    requires Within(order, |results|)
    decreases |order|
  {
    if order == [] then ""
    else if results[order[0]].settings.Some? then results[order[0]].settings.value.release
    else StickyVersion(results, order[1..])
  }

  /** Once the version is fixed, each probe in `order` is checked against it and the rest are left alone. */
  lemma {:induction false} StickyFixed(results: seq<Rhp4.Report>, order: seq<nat>, v: string)
    requires Within(order, |results|) && Distinct(order)
    ensures var rs := Sticky(results, order, Some(v));
      forall j :: 0 <= j < |results| ==> rs[j] == if j in order then Mark(results[j], v) else results[j]
    decreases |order|
  {
    if order != [] {
      var i := order[0];
      var rest := order[1..];
      assert Distinct(rest);
      assert i !in rest by {
        forall k | 0 <= k < |rest| ensures rest[k] != i {
          assert rest[k] == order[k + 1];
        }
      }
      assert forall j :: j in order <==> j == i || j in rest;
      var next := if results[i].settings.None? then results else results[i := Mark(results[i], v)];
      StickyFixed(next, rest, v);
    }
  }

  /**
   * Before any probe has fixed the version: each probe in `order` ends up
   * checked against the release of the first one with settings.
   */
  lemma {:induction false} StickyFromStart(results: seq<Rhp4.Report>, order: seq<nat>)
    requires Within(order, |results|) && Distinct(order)
    ensures var rs := Sticky(results, order, None);
      forall j :: 0 <= j < |results| ==>
        rs[j] == if j in order then Mark(results[j], StickyVersion(results, order)) else results[j]
    decreases |order|
  {
    if order != [] {
      var i := order[0];
      var rest := order[1..];
      assert Distinct(rest);
      assert i !in rest by {
        forall k | 0 <= k < |rest| ensures rest[k] != i {
          assert rest[k] == order[k + 1];
        }
      }
      assert forall j :: j in order <==> j == i || j in rest;
      if results[i].settings.None? {
        StickyFromStart(results, rest);
      } else {
        var v := results[i].settings.value.release;
        StickyFixed(results[i := Mark(results[i], v)], rest, v);
      }
    }
  }

  /**
   * The sticky rule in closed form, for any completion order: every probe
   * with settings whose release differs from the version fixed by the first
   * finished probe with settings gets one multiple-versions error, and no
   * other probe changes; in particular the probe that fixed it never does.
   */
  lemma StickyClosedForm(results: seq<Rhp4.Report>, order: seq<nat>)
    requires IsPermutation(order, |results|)
    ensures var rs := Sticky(results, order, None);
      var v := StickyVersion(results, order);
      forall j :: 0 <= j < |results| ==> rs[j] == Mark(results[j], v)
  {
    StickyFromStart(results, order);
    PermutationCovers(order, |results|);
  }

  /** The sticky version is the release of the first probe, in `order`, that decoded settings. */
  lemma {:induction false} StickyVersionIsFirst(results: seq<Rhp4.Report>, order: seq<nat>, k: nat)
    requires Within(order, |results|)
    requires k < |order| && results[order[k]].settings.Some?
    requires forall t :: 0 <= t < k ==> results[order[t]].settings.None?
    ensures StickyVersion(results, order) == results[order[k]].settings.value.release
    decreases k
  {
    if k > 0 {
      assert results[order[0]].settings.None?;
      var rest := order[1..];
      assert forall t :: 0 <= t < k - 1 ==> rest[t] == order[t + 1];
      StickyVersionIsFirst(results, rest, k - 1);
    }
  }

  /**
   * The first probe to finish with settings fixes the version and is never
   * flagged; any other probe with settings is flagged exactly when its
   * release differs from that one.
   */
  lemma StickyFirstUnflagged(results: seq<Rhp4.Report>, order: seq<nat>, k: nat, j: nat)
    requires IsPermutation(order, |results|)
    requires k < |order| && results[order[k]].settings.Some?
    requires forall t :: 0 <= t < k ==> results[order[t]].settings.None?
    requires j < |results| && results[j].settings.Some?
    ensures var rs := Sticky(results, order, None);
      && rs[order[k]] == results[order[k]]
      && (rs[j] != results[j] <==> results[j].settings.value.release != results[order[k]].settings.value.release)
  {
    StickyClosedForm(results, order);
    StickyVersionIsFirst(results, order, k);
  }

  /** The set of entries of `order`. */
  function Entries(order: seq<nat>): set<nat> {
    set i | 0 <= i < |order| :: order[i]
  }

  /** The indices below `n`. */
  function Below(n: nat): (b: set<nat>)
    ensures forall j: int :: j in b <==> 0 <= j < n
  {
    if n == 0 then {} else Below(n - 1) + {n - 1}
  }

  /** Pigeonhole: a permutation of the indices below `n` contains every one of them. */
  lemma PermutationCovers(order: seq<nat>, n: nat)
    requires IsPermutation(order, n)
    ensures forall j :: 0 <= j < n ==> j in order
  {
    assert Entries(order) <= Below(n);
    DistinctCardinality(order);
    BelowCardinality(n);
    if Entries(order) != Below(n) {
      SubsetCardinality(Entries(order), Below(n));
    }
    forall j | 0 <= j < n ensures j in order {
      assert j in Below(n);
      var i :| 0 <= i < |order| && order[i] == j;
    }
  }

  lemma {:induction false} DistinctCardinality(order: seq<nat>)
    requires Distinct(order)
    ensures |Entries(order)| == |order|
    decreases |order|
  {
    if order != [] {
      var rest := order[1..];
      assert Distinct(rest);
      DistinctCardinality(rest);
      assert order[0] !in Entries(rest) by {
        forall k | 0 <= k < |rest| ensures rest[k] != order[0] {
          assert rest[k] == order[k + 1];
        }
      }
      assert Entries(order) == Entries(rest) + {order[0]} by {
        forall x | x in Entries(order) ensures x in Entries(rest) + {order[0]} {
          var i :| 0 <= i < |order| && order[i] == x;
          if i > 0 {
            assert rest[i - 1] == x;
          }
        }
        forall x | x in Entries(rest) ensures x in Entries(order) {
          var i :| 0 <= i < |rest| && rest[i] == x;
          assert order[i + 1] == x;
        }
      }
    }
  }

  lemma {:induction false} BelowCardinality(n: nat)
    ensures |Below(n)| == n
  {
    if n > 0 {
      BelowCardinality(n - 1);
      var b := Below(n - 1);
      assert Below(n) == b + {n - 1};
      assert n - 1 !in b;
      assert |b + {n - 1}| == |b| + 1;
    }
  }

  lemma SubsetCardinality(a: set<nat>, b: set<nat>)
    requires a < b
    ensures |a| < |b|
  {
    var x :| x in b && x !in a;
    SubsetSize(a, b - {x});
    assert b == (b - {x}) + {x};
  }

  lemma {:induction false} SubsetSize(a: set<nat>, b: set<nat>)
    requires a <= b
    ensures |a| <= |b|
    decreases |a|
  {
    if a != {} {
      var x :| x in a;
      SubsetSize(a - {x}, b - {x});
      assert a == (a - {x}) + {x};
      assert b == (b - {x}) + {x};
    }
  }

  // ---------------------------------------------------------------------------
  // The reported version
  // ---------------------------------------------------------------------------

  /** The lowest index whose result holds settings, if any. */
  function FirstSettled(rs: seq<Rhp4.Report>): (k: Option<nat>)
    ensures k.Some? ==> k.value < |rs| && rs[k.value].settings.Some? &&
                        forall j :: 0 <= j < k.value ==> rs[j].settings.None?
    ensures k.None? ==> forall j :: 0 <= j < |rs| ==> rs[j].settings.None?
  {
    if rs == [] then None
    else if rs[0].settings.Some? then Some(0)
    else
      match FirstSettled(rs[1..])
      case None => None
      case Some(k) => Some(k + 1)
  }

  /**
   * The version a host test reports: the release of the lowest-index RHP4
   * result with settings, "" when there are RHP4 results but none has
   * settings; the RHP2 release is used only when there are no RHP4 results.
   */
  function SelectVersion(rhp4: seq<Rhp4.Report>, rhp2: Option<Rhp2.Report2>): (v: string)
    ensures |rhp4| > 0 && FirstSettled(rhp4).None? ==> v == ""
    ensures |rhp4| > 0 && FirstSettled(rhp4).Some? ==> v == rhp4[FirstSettled(rhp4).value].settings.value.release
    ensures |rhp4| == 0 && rhp2.Some? && rhp2.value.settings.Some? ==> v == rhp2.value.settings.value.release
    ensures |rhp4| == 0 && (rhp2.None? || rhp2.value.settings.None?) ==> v == ""
  {
    if |rhp4| != 0 then
      match FirstSettled(rhp4)
      case Some(k) => rhp4[k].settings.value.release
      case None => ""
    else if rhp2.Some? && rhp2.value.settings.Some? then rhp2.value.settings.value.release
    else ""
  }

  /**
   * The RHP4 half of a host test: every address probed, then the sticky
   * version rule applied in completion order. Each result is that address's
   * own probe checked against the release of the first probe, in completion
   * order, to decode settings.
   */
  function ProbeHost(env: Env, latest: SemVer, height: nat, addrs: seq<Rhp4.NetAddress>,
                     outs: seq<Rhp4.Outcomes>, completion: seq<nat>): (rs: seq<Rhp4.Report>)
    requires |outs| == |addrs|
    requires IsPermutation(completion, |addrs|)
    ensures |rs| == |addrs|
    ensures var v := StickyVersion(ProbeAddresses(env, latest, height, addrs, outs, {}), completion);
      forall i :: 0 <= i < |addrs| ==> rs[i] == Mark(Rhp4.TestRhp4(env, latest, height, addrs[i], outs[i]), v)
  {
    var probed := ProbeAddresses(env, latest, height, addrs, outs, {});
    EveryAddressProbed(env, latest, height, addrs, outs);
    StickyClosedForm(probed, completion);
    Sticky(probed, completion, None)
  }

  // ---------------------------------------------------------------------------
  // TestHost
  // ---------------------------------------------------------------------------

  /**
   * `TestHost`: refuse when closed or on cooldown; otherwise start the
   * cooldown, run the RHP2 and RHP3 probes only before the hardfork's allow
   * height, probe every RHP4 address, apply the sticky version rule in the
   * given completion order and pick the reported version.
   */
  function TestHost(env: Env, m: Manager, host: Host, now: int, out: HostOutcomes): (r: Result<(Manager, HostResult), TestError>)
    requires |out.rhp4| == |host.rhp4NetAddresses|
    requires IsPermutation(out.completion, |host.rhp4NetAddresses|)
    ensures m.stopped ==> r == Err(ShutDown)
    ensures !m.stopped ==> (r.Err? <==> host.publicKey in m.cooldown && m.cooldown[host.publicKey] > now)
    ensures r.Err? && !m.stopped ==> r.error == OnCooldown(m.cooldown[host.publicKey] - now)
    ensures r.Ok? ==> r.value.0 == m.(cooldown := m.cooldown[host.publicKey := now + CooldownWindow])
    ensures r.Ok? ==> var res := r.value.1;
      && res.publicKey == host.publicKey
      && (res.rhp2.Some? <==> m.state.height < m.state.allowHeight)
      && (res.rhp3.Some? <==> m.state.height < m.state.allowHeight)
      && (m.state.height < m.state.allowHeight ==>
            && res.rhp2 == Some(Rhp2.TestRhp2(env, m.latestRelease, host.rhp2NetAddress, out.rhp2))
            && res.rhp3 == Some(DeriveRhp3(env, res.rhp2.value, m.state.height, out.rhp3)))
      && |res.rhp4| == |host.rhp4NetAddresses|
      && res.rhp4 == ProbeHost(env, m.latestRelease, m.state.height, host.rhp4NetAddresses, out.rhp4, out.completion)
      && (forall i :: 0 <= i < |res.rhp4| ==> res.rhp4[i].netAddress == host.rhp4NetAddresses[i])
      && res.version == SelectVersion(res.rhp4, res.rhp2)
  {
    if m.stopped then Err(ShutDown)
    else
      match CheckCooldown(m.cooldown, host.publicKey, now)
      case Err(n) => Err(OnCooldown(n))
      case Ok(cooldown) =>
        var latest := m.latestRelease;
        var cs := m.state;
        var rhp2 := if cs.height < cs.allowHeight then Some(Rhp2.TestRhp2(env, latest, host.rhp2NetAddress, out.rhp2)) else None;
        var rhp3 := if rhp2.Some? then Some(DeriveRhp3(env, rhp2.value, cs.height, out.rhp3)) else None;
        var rhp4 := ProbeHost(env, latest, cs.height, host.rhp4NetAddresses, out.rhp4, out.completion);
        Ok((m.(cooldown := cooldown), HostResult(host.publicKey, SelectVersion(rhp4, rhp2), rhp2, rhp3, rhp4)))
  }

  /**
   * The reported version need not be the sticky one: the lowest-index
   * result with settings is reported even when a later address finished
   * first, fixed another version, and flagged it with a multiple-versions
   * error.
   */
  lemma ReportedVersionMayBeFlagged(r0: Rhp4.Report, r1: Rhp4.Report, a: Rhp4.Settings, b: Rhp4.Settings)
    requires r0.settings == Some(a) && r1.settings == Some(b) && a.release != b.release
    ensures var rs := Sticky([r0, r1], [1, 0], None);
      && SelectVersion(rs, None) == a.release
      && rs[0].errors == r0.errors + [MultipleVersions(b.release, a.release)]
  {
    StickyClosedForm([r0, r1], [1, 0]);
    assert StickyVersion([r0, r1], [1, 0]) == b.release;
  }

  // ---------------------------------------------------------------------------
  // Life cycle and refresh
  // ---------------------------------------------------------------------------

  datatype InitError =
    | ReleaseFetchFailed(detail: string)   // "failed to get latest release: %w"
    | ReleaseInvalid(cause: ParseError)    // "failed to unmarshal latest release: %w"
    | StateFetchFailed(detail: string)     // "failed to get tip state: %w"

  /**
   * `NewManager`: fetch and parse the latest release, then fetch the chain
   * state; the first failure is returned. The release text is parsed as it
   * is, without dropping an application prefix.
   */
  function NewManager(release: Result<string, string>, state: Result<ChainState, string>): (r: Result<Manager, InitError>)
    ensures r.Ok? <==> release.Ok? && Parse(release.value).Ok? && state.Ok?
    ensures r.Ok? ==> r.value == Manager(false, Parse(release.value).value, state.value, map[])
    ensures release.Err? ==> r == Err(ReleaseFetchFailed(release.error))
    ensures release.Ok? && Parse(release.value).Err? ==> r == Err(ReleaseInvalid(Parse(release.value).error))
    ensures release.Ok? && Parse(release.value).Ok? && state.Err? ==> r == Err(StateFetchFailed(state.error))
  {
    match release
    case Err(e) => Err(ReleaseFetchFailed(e))
    case Ok(text) =>
      match Parse(text)
      case Err(e) => Err(ReleaseInvalid(e))
      case Ok(v) =>
        match state
        case Err(e) => Err(StateFetchFailed(e))
        case Ok(cs) => Ok(Manager(false, v, cs, map[]))
  }

  /** `Close`: stop the manager. */
  function Close(m: Manager): (c: Manager)
    ensures c.stopped
    ensures c.(stopped := m.stopped) == m
  {
    m.(stopped := true)
  }

  /** A closed manager refuses every test and leaves its state alone. */
  lemma ClosedRefuses(env: Env, m: Manager, host: Host, now: int, out: HostOutcomes)
    requires |out.rhp4| == |host.rhp4NetAddresses|
    requires IsPermutation(out.completion, |host.rhp4NetAddresses|)
    ensures TestHost(env, Close(m), host, now, out) == Err(ShutDown)
  {
  }

  /** One tick of the refresh loop, with what its fetch returned. */
  datatype Tick =
    | StateTick(state: Result<ChainState, string>)
    | ReleaseTick(release: Result<string, string>)

  /** A tick: a successful fetch replaces the cached value; a failed fetch or an unparsable release leaves it. */
  function Refresh(m: Manager, t: Tick): (m': Manager)
    ensures m'.stopped == m.stopped && m'.cooldown == m.cooldown
    ensures t.StateTick? ==> m'.latestRelease == m.latestRelease
    ensures t.StateTick? && t.state.Ok? ==> m'.state == t.state.value
    ensures t.StateTick? && t.state.Err? ==> m' == m
    ensures t.ReleaseTick? ==> m'.state == m.state
    ensures t.ReleaseTick? && t.release.Ok? && Parse(t.release.value).Ok? ==>
              m'.latestRelease == Parse(t.release.value).value
    ensures t.ReleaseTick? && (t.release.Err? || Parse(t.release.value).Err?) ==> m' == m
  {
    match t
    case StateTick(Ok(cs)) => m.(state := cs)
    case StateTick(Err(_)) => m
    case ReleaseTick(Err(_)) => m
    case ReleaseTick(Ok(text)) =>
      match Parse(text)
      case Ok(v) => m.(latestRelease := v)
      case Err(_) => m
  }

  /** The refresh loop over a run of ticks, in order. */
  function RefreshAll(m: Manager, ticks: seq<Tick>): (m': Manager)
    ensures m'.stopped == m.stopped && m'.cooldown == m.cooldown
    decreases |ticks|
  {
    if ticks == [] then m else RefreshAll(Refresh(m, ticks[0]), ticks[1..])
  }

  /** The release of the last tick that fetched a parsable release, or `fallback` when none did. */
  function LastGoodRelease(ticks: seq<Tick>, fallback: SemVer): SemVer
    decreases |ticks|
  {
    if ticks == [] then fallback
    else
      var t := ticks[|ticks| - 1];
      if t.ReleaseTick? && t.release.Ok? && Parse(t.release.value).Ok? then Parse(t.release.value).value
      else LastGoodRelease(ticks[..|ticks| - 1], fallback)
  }

  /**
   * Stale on failure: after any run of ticks the cached release is the last
   * one fetched and parsed successfully, or the starting one; the cooldowns
   * and the stopped flag are untouched.
   */
  lemma {:induction false} RefreshKeepsLastGood(m: Manager, ticks: seq<Tick>)
    ensures RefreshAll(m, ticks).latestRelease == LastGoodRelease(ticks, m.latestRelease)
    ensures RefreshAll(m, ticks).cooldown == m.cooldown && RefreshAll(m, ticks).stopped == m.stopped
    decreases |ticks|
  {
    if ticks != [] {
      var init := ticks[..|ticks| - 1];
      var last := ticks[|ticks| - 1];
      assert ticks == init + [last];
      RefreshSnoc(m, init, last);
      RefreshKeepsLastGood(m, init);
    }
  }

  lemma {:induction false} RefreshSnoc(m: Manager, init: seq<Tick>, last: Tick)
    ensures RefreshAll(m, init + [last]) == Refresh(RefreshAll(m, init), last)
    decreases |init|
  {
    if init == [] {
      assert [] + [last] == [last];
    } else {
      assert (init + [last])[1..] == init[1..] + [last];
      RefreshSnoc(Refresh(m, init[0]), init[1..], last);
    }
  }
}

=== FILE: probe.dfy ===
/**
 * Pieces shared by the protocol probes (troubleshoot/rhp2.go and
 * troubleshoot/rhp4.go declare them twice with identical bodies; they are
 * modelled once here): the minimum contract duration, `delta`,
 * `parseReleaseString`, the error classification of `dialContext`, the
 * exclusive collateral checks and the release check, plus the messages the
 * probes record and the abstract outcomes of their network steps.
 */
module Probe {
  import opened Wrappers
  import opened Text
  import opened Versions
  import Dns

  /** 30 days of 144 blocks. */
  const MinContractDuration: nat := 144 * 30

  // ---------------------------------------------------------------------------
  // Messages
  // ---------------------------------------------------------------------------

  /** The three mutually exclusive collateral findings. */
  datatype CollateralIssue = NoCollateral | BelowStorage | BelowDouble

  /** One constructor per error or warning text the probes and the manager record. */
  datatype Message =
    // dialContext
    | DialDnsFailed(address: string)          // "failed to resolve host %q: check DNS setup"
    | DialRefused(address: string)            // "connection refused at %q: check if the service is running ..."
    | DialTimedOut(address: string)           // "timeout connecting to %q: check port forwarding or firewall"
    | DialFailed(address: string, detail: string)   // "failed to connect to host at %q: %w"
    // addresses and name resolution
    | BadNetAddress(address: string, detail: string)  // "failed to parse net address %q: %v"
    | DnsNotFound(host: string)                // "DNS lookup %q failed: check DNS records ..."
    | LookupFailed(host: string, cause: Dns.DnsError) // RHP4: "failed to resolve host %q: %s"
    | ResolveFailed(host: string, detail: string)     // RHP2: "failed to resolve host %q: %v"
    | UnknownProtocol(name: string)            // "unknown protocol %q"
    // transports and RPCs
    | SiaMuxFailed(detail: string)             // "failed to connect to siamux: %s"
    | QuicPortBlocked(port: string)            // "failed to connect to quic: check port forwarding ... UDP port %q"
    | QuicFailed(detail: string)               // "failed to connect to quic: %s"
    | TransportFailed(detail: string)          // "failed to create transport: %v"
    | SettingsFailed(detail: string)           // "failed to get settings: %v"
    | PriceTableFailed(detail: string)         // "failed to scan price table: %v"
    // RHP4 settings checks
    | NotAcceptingContracts                    // "host is not accepting contracts"
    | NoMaxCollateral                          // "host has no max collateral"
    | ShortContractDuration                    // "host has a max contract duration less than 1 month"
    | CollateralPrice(issue: CollateralIssue)  // "host has no collateral price", "host's collateral price is less than ..."
    | TipHeightOff(hostHeight: nat, tipHeight: nat)   // "host's tip height %d is less than the current tip height %d"
    | UnknownVersion(reported: string)        // "host is running an unknown version %q, which may not be stable"
    | OutdatedVersion(running: SemVer, latest: SemVer) // "host is running an outdated version %q, latest is %q"
    // RHP2 and RHP3 checks
    | NetAddressMismatch                       // "announced net address does not match settings"
    | MaxCollateralZero                        // "max collateral is zero"
    | Collateral(issue: CollateralIssue)       // "collateral is zero", "collateral should be ..."
    | ShortMaxDuration                         // "max duration is less than 30 days"
    | BehindConsensus(blocks: nat)             // "host is behind consensus by %d blocks"
    // manager
    | DuplicateProtocol(name: string)          // "duplicate protocol %q"
    | MultipleVersions(first: string, other: string) // "host is reporting multiple versions %q and %q"

  // ---------------------------------------------------------------------------
  // The order of the warnings
  // ---------------------------------------------------------------------------

  /**
   * The position of each warning in one order all three probes follow: the
   * RHP4 checks run accepting, max collateral, duration, collateral, release;
   * the RHP2 checks accepting, net address, max collateral, collateral,
   * duration, release; the RHP3 checks max collateral, collateral, height.
   */
  function Rank(m: Message): nat {
    match m
    case NotAcceptingContracts => 0
    case NetAddressMismatch => 1
    case NoMaxCollateral => 2
    case MaxCollateralZero => 2
    case ShortContractDuration => 3
    case CollateralPrice(_) => 4
    case Collateral(_) => 4
    case ShortMaxDuration => 5
    case UnknownVersion(_) => 6
    case OutdatedVersion(_, _) => 6
    case BehindConsensus(_) => 7
    case _ => 8
  }

  /** The two findings of the release check. */
  predicate IsReleaseFinding(m: Message) {
    m.UnknownVersion? || m.OutdatedVersion?
  }

  /** Strictly increasing ranks: each check adds at most one warning, in order. */
  predicate Ascending(ws: seq<Message>) {
    forall i, j :: 0 <= i < j < |ws| ==> Rank(ws[i]) < Rank(ws[j])
  }

  /**
   * The findings of a list of checks run in order, each `None` when it
   * passes or the warning it appends: their ranks increase along the list.
   */
  predicate InRankOrder(checks: seq<Option<Message>>) {
    forall i, j :: 0 <= i < j < |checks| && checks[i].Some? && checks[j].Some? ==>
      Rank(checks[i].value) < Rank(checks[j].value)
  }

  /** A property every check's finding has holds of every gathered warning: nothing else gets in. */
  lemma {:induction false} CollectClosed(checks: seq<Option<Message>>, allowed: Message -> bool)
    requires forall i :: 0 <= i < |checks| && checks[i].Some? ==> allowed(checks[i].value)
    ensures forall m :: m in Collect(checks) ==> allowed(m)
  {
    CollectMembers(checks);
    forall m | m in Collect(checks)
      ensures allowed(m)
    {
      var i :| 0 <= i < |checks| && checks[i] == Some(m);
    }
  }

  /**
   * Checks whose every finding has the rank given for its position, when
   * those ranks increase, are in rank order.
   */
  lemma RankedByPosition(checks: seq<Option<Message>>, ranks: seq<nat>)
    requires |ranks| == |checks|
    requires forall i :: 0 <= i < |checks| && checks[i].Some? ==> Rank(checks[i].value) == ranks[i]
    requires forall i, j :: 0 <= i < j < |ranks| ==> ranks[i] < ranks[j]
    ensures InRankOrder(checks)
  {
  }

  /** The finding of a check that appends `m` when `fails` holds. */
  function When(fails: bool, m: Message): (c: Option<Message>)
    ensures c == None || c == Some(m)
    ensures c.Some? <==> fails
  {
    if fails then Some(m) else None
  }

  /** The warning list a run of checks leaves behind: each failing check appends its warning. */
  function Collect(checks: seq<Option<Message>>): (ws: seq<Message>)
    ensures |ws| <= |checks|
  {
    if checks == [] then []
    else
      var last := checks[|checks| - 1];
      Collect(checks[..|checks| - 1]) + (if last.Some? then [last.value] else [])
  }

  /** A warning is in the list exactly when some check reported it. */
  lemma {:induction false} CollectMembers(checks: seq<Option<Message>>)
    ensures forall x :: x in Collect(checks) <==> Some(x) in checks
  {
    if checks != [] {
      var init := checks[..|checks| - 1];
      CollectMembers(init);
      assert checks == init + [checks[|checks| - 1]];
    }
  }

  /** When every check passes, nothing is appended. */
  lemma CollectPassing(checks: seq<Option<Message>>)
    requires forall i :: 0 <= i < |checks| ==> checks[i].None?
    ensures Collect(checks) == []
  {
    CollectMembers(checks);
    var ws := Collect(checks);
    assert forall x :: x !in ws;
  }

  /** When every check fails, each appends its warning in turn. */
  lemma {:induction false} CollectFailing(checks: seq<Option<Message>>)
    requires forall i :: 0 <= i < |checks| ==> checks[i].Some?
    ensures |Collect(checks)| == |checks|
    ensures forall i :: 0 <= i < |checks| ==> Collect(checks)[i] == checks[i].value
  {
    if checks != [] {
      var init := checks[..|checks| - 1];
      CollectFailing(init);
      assert Collect(checks) == Collect(init) + [checks[|checks| - 1].value];
    }
  }

  /** Checks run in rank order leave their warnings in rank order. */
  lemma {:induction false} CollectAscending(checks: seq<Option<Message>>)
    requires InRankOrder(checks)
    ensures Ascending(Collect(checks))
  {
    if checks != [] {
      var init := checks[..|checks| - 1];
      var last := checks[|checks| - 1];
      assert InRankOrder(init);
      CollectAscending(init);
      CollectMembers(init);
      var ws := Collect(init);
      if last.Some? {
        forall x | x in ws
          ensures Rank(x) < Rank(last.value)
        {
          var i :| 0 <= i < |init| && init[i] == Some(x);
          assert checks[i] == Some(x);
        }
      }
    }
  }

  // ---------------------------------------------------------------------------
  // Outcomes of the network steps
  // ---------------------------------------------------------------------------

  /**
   * What a failed dial reports about itself: whether it is (or wraps) a DNS
   * error, an ECONNREFUSED system-call error inside an operation error, and a
   * network error that says it timed out.
   */
  datatype DialError = DialError(isDns: bool, isConnRefused: bool, isTimeout: bool, detail: string)

  /** A dial: the connection and the time it took, or the failure. */
  datatype DialOutcome = Dialed(elapsed: nat) | DialRejected(err: DialError)

  /** A handshake or transport upgrade: the time it took, or the failure text. */
  datatype StepOutcome = StepOk(elapsed: nat) | StepFailed(detail: string)

  /** An RPC: the decoded reply, or the failure text; the time is measured either way. */
  datatype RpcOutcome<T> = RpcOk(elapsed: nat, value: T) | RpcFailed(elapsed: nat, detail: string)

  datatype HostPort = HostPort(host: string, port: string)

  /**
   * The environment shared by all probes of one run: `net.SplitHostPort`, and
   * the fallback DNS server (its exchange and the IP-literal parser).
   */
  datatype Env = Env(splitHostPort: string -> Result<HostPort, string>, exchange: Dns.Exchange, parseIP: Dns.IpParser)

  // ---------------------------------------------------------------------------
  // Shared helpers
  // ---------------------------------------------------------------------------

  /** The absolute difference, computed without going below zero. */
  function Delta(a: nat, b: nat): (d: nat)
    ensures a <= b ==> a + d == b
    ensures b <= a ==> b + d == a
  {
    if a < b then b - a else a - b
  }

  lemma DeltaSymmetric(a: nat, b: nat)
    ensures Delta(a, b) == Delta(b, a)
    ensures Delta(a, b) == 0 <==> a == b
  {
  }

  /**
   * `parseReleaseString`: with two or more whitespace-separated fields the
   * second one is parsed (dropping an application-name prefix); otherwise the
   * original text is parsed as it is, without trimming.
   */
  function ParseRelease(text: string): Result<SemVer, ParseError> {
    var fields := Fields(text);
    if |fields| > 1 then Parse(fields[1]) else Parse(text)
  }

  lemma NoSpaceConcat(x: string, y: string)
    ensures NoSpace(x + y) <==> NoSpace(x) && NoSpace(y)
  {
    if NoSpace(x + y) {
      assert forall i :: 0 <= i < |x| ==> x[i] == (x + y)[i];
      assert forall i :: 0 <= i < |y| ==> y[i] == (x + y)[|x| + i];
    }
  }

  lemma DigitsNoSpace(s: string)
    requires AllDigits(s)
    ensures NoSpace(s)
  {
  }

  lemma ToStringNoSpace(v: SemVer)
    requires NoSpace(v.suffix)
    ensures NoSpace(ToString(v))
  {
    var a, b, c := Decimal(v.major), Decimal(v.minor), Decimal(v.patch);
    DigitsNoSpace(a);
    DigitsNoSpace(b);
    DigitsNoSpace(c);
    NoSpaceConcat("v", a);
    NoSpaceConcat("v" + a, ".");
    NoSpaceConcat("v" + a + ".", b);
    NoSpaceConcat("v" + a + "." + b, ".");
    NoSpaceConcat("v" + a + "." + b + ".", c);
    var numbers := "v" + a + "." + b + "." + c;
    if v.suffix != "" {
      NoSpaceConcat(numbers, "-");
      NoSpaceConcat(numbers + "-", v.suffix);
    }
  }

  /**
   * The release text a host reports, `<app> <version>` or the bare version,
   * reads back as the version printed, as long as neither the application
   * name nor the suffix holds whitespace.
   */
  lemma ParseReleaseRoundTrip(app: string, v: SemVer)
    requires 0 < |app| && NoSpace(app)
    requires NoSpace(v.suffix)
    ensures ParseRelease(app + " " + ToString(v)) == Ok(v)
    ensures ParseRelease(ToString(v)) == Ok(v)
  {
    var s := ToString(v);
    ToStringNoSpace(v);
    ParseToString(v);
    ParseReleaseSecondField(app, s);
    ParseReleaseSingleField(s);
  }

  /** A single space-free field is parsed as it is. */
  lemma ParseReleaseSingleField(s: string)
    requires 0 < |s| && NoSpace(s)
    ensures ParseRelease(s) == Parse(s)
  {
    FieldsJoin([s]);
    assert Join([s], ' ') == s;
  }

  /** In `<app> <version>`, with neither part holding whitespace, the version is the field parsed. */
  lemma ParseReleaseSecondField(app: string, s: string)
    requires 0 < |app| && NoSpace(app)
    requires 0 < |s| && NoSpace(s)
    ensures ParseRelease(app + " " + s) == Parse(s)
  {
    FieldsJoin([app, s]);
    assert Join([app, s], ' ') == app + " " + s by {
      assert [app, s][1..] == [s];
    }
  }

  /**
   * A release of two or more space-free words joined by single spaces
   * (`hostd v2.0.1 (abc)`) is read from its second word.
   */
  lemma ParseReleaseWords(words: seq<string>)
    requires 2 <= |words|
    requires forall i :: 0 <= i < |words| ==> 0 < |words[i]| && NoSpace(words[i])
    ensures ParseRelease(Join(words, ' ')) == Parse(words[1])
  {
    FieldsJoin(words);
  }

  /**
   * The same holds for any whitespace: runs of several spaces or tabs between
   * the words and whitespace before or after them.
   */
  lemma ParseReleaseSpaced(words: seq<string>, gaps: seq<string>)
    requires 2 <= |words| && |gaps| == |words| + 1
    requires forall i :: 0 <= i < |words| ==> 0 < |words[i]| && NoSpace(words[i])
    requires forall i :: 0 <= i < |gaps| ==> AllSpace(gaps[i])
    requires forall i :: 0 < i < |words| ==> 0 < |gaps[i]|
    ensures ParseRelease(Spaced(words, gaps)) == Parse(words[1])
  {
    FieldsSpaced(words, gaps);
  }

  /** Surrounding whitespace is not trimmed when there is a single field. */
  lemma ParseReleaseUntrimmed(text: string)
    requires 0 < |text| && IsSpace(text[0])
    requires |Fields(text)| <= 1
    ensures ParseRelease(text) == Err(BadPrefix(text))
  {
  }

  /**
   * `dialContext`'s error translation: DNS errors first, then a refused
   * connection, then a timeout, then the generic failure.
   */
  function ClassifyDial(address: string, e: DialError): (m: Message)
    ensures m == DialDnsFailed(address) <==> e.isDns
    ensures m == DialRefused(address) <==> !e.isDns && e.isConnRefused
    ensures m == DialTimedOut(address) <==> !e.isDns && !e.isConnRefused && e.isTimeout
    ensures m == DialFailed(address, e.detail) <==> !e.isDns && !e.isConnRefused && !e.isTimeout
  {
    if e.isDns then DialDnsFailed(address)
    else if e.isConnRefused then DialRefused(address)
    else if e.isTimeout then DialTimedOut(address)
    else DialFailed(address, e.detail)
  }

  /**
   * The exclusive collateral chain: no collateral, else collateral below
   * storage, else collateral below twice storage. At most one finding.
   */
  function CollateralCheck(collateral: nat, storage: nat): (r: Option<CollateralIssue>)
    ensures r == Some(NoCollateral) <==> collateral == 0
    ensures r == Some(BelowStorage) <==> 0 < collateral < storage
    ensures r == Some(BelowDouble) <==> 0 < collateral && storage <= collateral < 2 * storage
    ensures r == None <==> 0 < collateral && 2 * storage <= collateral
  {
    if collateral == 0 then Some(NoCollateral)
    else if collateral < storage then Some(BelowStorage)
    else if 2 * storage > collateral then Some(BelowDouble)
    else None
  }

  /**
   * The release check: an unparsable release is "unknown", a parsed release
   * below the latest is "outdated", anything else passes.
   */
  function ReleaseCheck(release: string, latest: SemVer): (r: Option<Message>)
    ensures r.Some? ==> IsReleaseFinding(r.value)
    ensures r.Some? && r.value.UnknownVersion? <==> ParseRelease(release).Err?
    ensures r.Some? && r.value.OutdatedVersion? <==>
              ParseRelease(release).Ok? && Cmp(ParseRelease(release).value, latest) < 0
    ensures r.Some? && ParseRelease(release).Err? ==> r.value == UnknownVersion(release)
    ensures r.Some? && ParseRelease(release).Ok? ==> r.value == OutdatedVersion(ParseRelease(release).value, latest)
  {
    match ParseRelease(release)
    case Err(_) => Some(UnknownVersion(release))
    case Ok(v) => if Cmp(v, latest) < 0 then Some(OutdatedVersion(v, latest)) else None
  }

  /** An empty release string is always reported as unknown. */
  lemma ReleaseCheckEmpty(latest: SemVer)
    ensures ReleaseCheck("", latest) == Some(UnknownVersion(""))
  {
    assert Fields("") == [];
    assert ParseRelease("") == Parse("");
  }

  /** A host reporting the latest release, or a newer one, draws no release warning. */
  lemma ReleaseCheckCurrent(app: string, v: SemVer, latest: SemVer)
    requires 0 < |app| && NoSpace(app) && NoSpace(v.suffix)
    requires 0 <= Cmp(v, latest)
    ensures ReleaseCheck(app + " " + ToString(v), latest) == None
    ensures ReleaseCheck(ToString(v), latest) == None
  {
    ParseReleaseRoundTrip(app, v);
  }
}

=== FILE: rhp2.dfy ===
/**
 * The RHP2 and RHP3 probes (troubleshoot/rhp2.go), run only before the v2
 * hardfork: dial, handshake, fetch the settings or the price table, and check
 * them. Any failed stage records one error and ends the probe.
 */
module Rhp2 {
  import opened Wrappers
  import opened Versions
  import opened Probe

  // ---------------------------------------------------------------------------
  // Data
  // ---------------------------------------------------------------------------

  /** The part of the RHP2 host settings the checks read. */
  datatype Settings = Settings(
    acceptingContracts: bool,
    netAddress: string,
    maxCollateral: nat,
    collateral: nat,
    storagePrice: nat,
    maxDuration: nat,
    release: string,
    siaMuxPort: string)

  /** The part of the RHP3 price table the checks read. */
  datatype PriceTable = PriceTable(
    maxCollateral: nat,
    collateralCost: nat,
    writeStoreCost: nat,
    hostBlockHeight: nat)

  /** The record the RHP2 probe fills in. */
  datatype Report2 = Report2(
    connected: bool,
    dialTime: nat,
    handshake: bool,
    handshakeTime: nat,
    scanned: bool,
    scanTime: nat,
    resolvedAddresses: seq<string>,
    settings: Option<Settings>,
    errors: seq<Message>,
    warnings: seq<Message>)

  const Blank2: Report2 := Report2(false, 0, false, 0, false, 0, [], None, [], [])

  /** The record the RHP3 probe fills in. */
  datatype Report3 = Report3(
    connected: bool,
    dialTime: nat,
    handshake: bool,
    handshakeTime: nat,
    scanned: bool,
    scanTime: nat,
    priceTable: Option<PriceTable>,
    errors: seq<Message>,
    warnings: seq<Message>)

  const Blank3: Report3 := Report3(false, 0, false, 0, false, 0, None, [], [])

  /** The outcomes of the network steps of one RHP2 probe. */
  datatype Outcomes2 = Outcomes2(
    dial: DialOutcome,
    lookup: Result<seq<string>, string>,
    transport: StepOutcome,
    settings: RpcOutcome<Settings>)

  /** The outcomes of the network steps of one RHP3 probe. */
  datatype Outcomes3 = Outcomes3(
    dial: DialOutcome,
    transport: StepOutcome,
    scan: RpcOutcome<PriceTable>)

  // ---------------------------------------------------------------------------
  // The checks
  // ---------------------------------------------------------------------------

  /**
   * The findings of the RHP2 settings checks, in the order they run:
   * accepting, announced address, max collateral, collateral, duration, and
   * last the release check, whose finding is given.
   */
  function Checks(s: Settings, announced: string, release: Option<Message>): (cs: seq<Option<Message>>)
    ensures |cs| == 6 && cs[5] == release
  {
    var collateral := CollateralCheck(s.collateral, s.storagePrice);
    [ When(!s.acceptingContracts, NotAcceptingContracts),
      When(s.netAddress != announced, NetAddressMismatch),
      When(s.maxCollateral == 0, MaxCollateralZero),
      if collateral.Some? then Some(Collateral(collateral.value)) else None,
      When(s.maxDuration < MinContractDuration, ShortMaxDuration),
      release ]
  }

  /** The kinds of warning the non-release RHP2 settings checks raise. */
  predicate Battery(m: Message) {
    || m == NotAcceptingContracts || m == NetAddressMismatch || m == MaxCollateralZero
    || m.Collateral? || m == ShortMaxDuration
  }

  /** Each RHP2 warning but the release finding is present exactly when its check fails. */
  lemma WarningsExact(s: Settings, announced: string, release: Option<Message>)
    requires release.Some? ==> IsReleaseFinding(release.value)
    ensures var ws := Collect(Checks(s, announced, release));
      && (NotAcceptingContracts in ws <==> !s.acceptingContracts)
      && (NetAddressMismatch in ws <==> s.netAddress != announced)
      && (MaxCollateralZero in ws <==> s.maxCollateral == 0)
      && (forall issue :: Collateral(issue) in ws <==> CollateralCheck(s.collateral, s.storagePrice) == Some(issue))
      && (ShortMaxDuration in ws <==> s.maxDuration < MinContractDuration)
  {
    CollectMembers(Checks(s, announced, release));
  }

  /** Only the battery's own kinds of warning, and the given release finding, can appear. */
  lemma WarningsClosed(s: Settings, announced: string, release: Option<Message>)
    ensures forall m :: m in Collect(Checks(s, announced, release)) ==> Battery(m) || release == Some(m)
  {
    CollectClosed(Checks(s, announced, release), m => Battery(m) || release == Some(m));
  }

  /** The release finding, and no other, is the one release warning. */
  lemma ReleaseWarningExact(s: Settings, announced: string, release: Option<Message>)
    requires release.Some? ==> IsReleaseFinding(release.value)
    ensures forall m :: m in Collect(Checks(s, announced, release)) && IsReleaseFinding(m) <==> release == Some(m)
  {
    var checks := Checks(s, announced, release);
    CollectMembers(checks);
    forall m | IsReleaseFinding(m)
      ensures Some(m) in checks <==> release == Some(m)
    {
      assert checks == checks[..5] + [release];
      assert Some(m) !in checks[..5];
    }
  }

  /** The RHP2 warnings appear in the order the checks run, each at most once. */
  lemma WarningsOrdered(s: Settings, announced: string, release: Option<Message>)
    requires release.Some? ==> IsReleaseFinding(release.value)
    ensures Ascending(Collect(Checks(s, announced, release)))
  {
    var checks := Checks(s, announced, release);
    RankedByPosition(checks, [0, 1, 2, 4, 5, 6]);
    CollectAscending(checks);
  }

  /**
   * The RHP2 settings checks against the announced address and the latest
   * release. They only ever warn.
   */
  function CheckSettings(s: Settings, announced: string, latest: SemVer): (ws: seq<Message>)
    ensures |ws| <= 6
  {
    Collect(Checks(s, announced, ReleaseCheck(s.release, latest)))
  }

  /**
   * The RHP2 warnings: each present exactly when its check fails, in the
   * order the checks run.
   */
  lemma CheckSettingsWarnings(s: Settings, announced: string, latest: SemVer)
    ensures var ws := CheckSettings(s, announced, latest);
      && Ascending(ws)
      && (NotAcceptingContracts in ws <==> !s.acceptingContracts)
      && (NetAddressMismatch in ws <==> s.netAddress != announced)
      && (MaxCollateralZero in ws <==> s.maxCollateral == 0)
      && (forall issue :: Collateral(issue) in ws <==> CollateralCheck(s.collateral, s.storagePrice) == Some(issue))
      && (ShortMaxDuration in ws <==> s.maxDuration < MinContractDuration)
      && (forall m :: m in ws && IsReleaseFinding(m) <==> ReleaseCheck(s.release, latest) == Some(m))
      && (forall m :: m in ws ==> Battery(m) || IsReleaseFinding(m))
  {
    var release := ReleaseCheck(s.release, latest);
    WarningsClosed(s, announced, release);
    WarningsExact(s, announced, release);
    ReleaseWarningExact(s, announced, release);
    WarningsOrdered(s, announced, release);
  }

  /**
   * The findings of the RHP3 price-table checks, in the order they run: max
   * collateral, the collateral chain on the collateral and storage-write
   * costs, and how far behind the given height the host is.
   */
  function PriceChecks(pt: PriceTable, height: nat): (cs: seq<Option<Message>>)
    ensures |cs| == 3
  {
    var collateral := CollateralCheck(pt.collateralCost, pt.writeStoreCost);
    [ When(pt.maxCollateral == 0, MaxCollateralZero),
      if collateral.Some? then Some(Collateral(collateral.value)) else None,
      if pt.hostBlockHeight < height then Some(BehindConsensus(height - pt.hostBlockHeight)) else None ]
  }

  /** The RHP3 price-table checks. They only ever warn. */
  function CheckPriceTable(pt: PriceTable, height: nat): (ws: seq<Message>)
    ensures |ws| <= 3
  {
    Collect(PriceChecks(pt, height))
  }

  /** Each RHP3 warning is present exactly when its check fails. */
  lemma PriceWarningsExact(pt: PriceTable, height: nat)
    ensures var ws := Collect(PriceChecks(pt, height));
      && (MaxCollateralZero in ws <==> pt.maxCollateral == 0)
      && (forall issue :: Collateral(issue) in ws <==> CollateralCheck(pt.collateralCost, pt.writeStoreCost) == Some(issue))
      && (forall n :: BehindConsensus(n) in ws <==> pt.hostBlockHeight < height && pt.hostBlockHeight + n == height)
  {
    CollectMembers(PriceChecks(pt, height));
  }

  /**
   * Each RHP3 warning is present exactly when its check fails, in the order
   * the checks run, and no other warning appears; only a host behind the
   * height is reported, by how far.
   */
  lemma CheckPriceTableWarnings(pt: PriceTable, height: nat)
    ensures var ws := CheckPriceTable(pt, height);
      && Ascending(ws)
      && (MaxCollateralZero in ws <==> pt.maxCollateral == 0)
      && (forall issue :: Collateral(issue) in ws <==> CollateralCheck(pt.collateralCost, pt.writeStoreCost) == Some(issue))
      && (forall n :: BehindConsensus(n) in ws <==> pt.hostBlockHeight < height && pt.hostBlockHeight + n == height)
      && (forall m :: m in ws ==> m == MaxCollateralZero || m.Collateral? || m.BehindConsensus?)
  {
    var checks := PriceChecks(pt, height);
    CollectClosed(checks, m => m == MaxCollateralZero || m.Collateral? || m.BehindConsensus?);
    RankedByPosition(checks, [2, 4, 7]);
    CollectAscending(checks);
    PriceWarningsExact(pt, height);
  }

  // ---------------------------------------------------------------------------
  // The probes
  // ---------------------------------------------------------------------------

  /** Stages complete in order and the decoded settings exist exactly after a scan. */
  predicate Staged2(r: Report2) {
    && (r.handshake ==> r.connected)
    && (r.scanned ==> r.handshake)
    && (r.settings.Some? <==> r.scanned)
  }

  predicate Staged3(r: Report3) {
    && (r.handshake ==> r.connected)
    && (r.scanned ==> r.handshake)
    && (r.priceTable.Some? <==> r.scanned)
  }

  /**
   * `testRHP2`: dial the announced address first, and only then split it
   * and resolve its host with the system resolver; then the transport
   * handshake and the settings RPC. The first failure is the only error.
   */
  function TestRhp2(env: Env, latest: SemVer, address: string, out: Outcomes2): (r: Report2)
    ensures Staged2(r)
    ensures |r.errors| <= 1
    ensures r.errors == [] <==> r.scanned
    ensures r.warnings != [] ==> r.scanned
    ensures out.dial.DialRejected? ==> r == Blank2.(errors := [ClassifyDial(address, out.dial.err)])
    ensures out.dial.Dialed? ==> r.connected && r.dialTime == out.dial.elapsed
    ensures out.dial.Dialed? && env.splitHostPort(address).Err? ==>
              r == Blank2.(connected := true, dialTime := out.dial.elapsed,
                           errors := [BadNetAddress(address, env.splitHostPort(address).error)])
    ensures out.dial.Dialed? && env.splitHostPort(address).Ok? && out.lookup.Err? ==>
              r == Blank2.(connected := true, dialTime := out.dial.elapsed,
                           errors := [ResolveFailed(env.splitHostPort(address).value.host, out.lookup.error)])
    ensures r.resolvedAddresses != [] ==> out.lookup.Ok? && r.resolvedAddresses == out.lookup.value
    ensures out.dial.Dialed? && env.splitHostPort(address).Ok? && out.lookup.Ok? ==>
              r.resolvedAddresses == out.lookup.value
    ensures out.dial.Dialed? && env.splitHostPort(address).Ok? && out.lookup.Ok? && out.transport.StepFailed? ==>
              r == Blank2.(connected := true, dialTime := out.dial.elapsed, resolvedAddresses := out.lookup.value,
                           errors := [TransportFailed(out.transport.detail)])
    ensures r.handshake ==> r.handshakeTime == out.transport.elapsed
    ensures r.handshake <==>
              out.dial.Dialed? && env.splitHostPort(address).Ok? && out.lookup.Ok? && out.transport.StepOk?
    ensures r.scanned <==> r.handshake && out.settings.RpcOk?
    ensures r.handshake && out.settings.RpcFailed? ==>
              r == Blank2.(connected := true, dialTime := out.dial.elapsed, resolvedAddresses := out.lookup.value,
                           handshake := true, handshakeTime := out.transport.elapsed,
                           errors := [SettingsFailed(out.settings.detail)])
    ensures r.scanned ==> r.settings == Some(out.settings.value) && r.scanTime == out.settings.elapsed
                          && r.warnings == CheckSettings(out.settings.value, address, latest)
  {
    match out.dial
    case DialRejected(e) => Blank2.(errors := [ClassifyDial(address, e)])
    case Dialed(t) =>
      var res := Blank2.(connected := true, dialTime := t);
      match env.splitHostPort(address)
      case Err(d) => res.(errors := [BadNetAddress(address, d)])
      case Ok(hp) =>
        match out.lookup
        case Err(d) => res.(errors := [ResolveFailed(hp.host, d)])
        case Ok(ips) =>
          var res1 := res.(resolvedAddresses := ips);
          match out.transport
          case StepFailed(d) => res1.(errors := [TransportFailed(d)])
          case StepOk(t2) =>
            var res2 := res1.(handshake := true, handshakeTime := t2);
            match out.settings
            case RpcFailed(_, d) => res2.(errors := [SettingsFailed(d)])
            case RpcOk(t3, settings) =>
              res2.(scanTime := t3, scanned := true, settings := Some(settings),
                    warnings := CheckSettings(settings, address, latest))
  }

  /**
   * `testRHP3`: dial the derived RHP3 address, handshake, scan the price
   * table and check it against the given height. The first failure is the
   * only error.
   */
  function TestRhp3(address: string, height: nat, out: Outcomes3): (r: Report3)
    ensures Staged3(r)
    ensures |r.errors| <= 1
    ensures r.errors == [] <==> r.scanned
    ensures r.warnings != [] ==> r.scanned
    ensures out.dial.DialRejected? ==> r == Blank3.(errors := [ClassifyDial(address, out.dial.err)])
    ensures r.connected <==> out.dial.Dialed?
    ensures r.connected ==> r.dialTime == out.dial.elapsed
    ensures out.dial.Dialed? && out.transport.StepFailed? ==>
              r == Blank3.(connected := true, dialTime := out.dial.elapsed,
                           errors := [TransportFailed(out.transport.detail)])
    ensures r.handshake <==> out.dial.Dialed? && out.transport.StepOk?
    ensures r.handshake ==> r.handshakeTime == out.transport.elapsed
    ensures r.handshake && out.scan.RpcFailed? ==>
              r == Blank3.(connected := true, dialTime := out.dial.elapsed,
                           handshake := true, handshakeTime := out.transport.elapsed,
                           errors := [PriceTableFailed(out.scan.detail)])
    ensures r.scanned <==> r.handshake && out.scan.RpcOk?
    ensures r.scanned ==> r.priceTable == Some(out.scan.value) && r.scanTime == out.scan.elapsed
                          && r.warnings == CheckPriceTable(out.scan.value, height)
  {
    match out.dial
    case DialRejected(e) => Blank3.(errors := [ClassifyDial(address, e)])
    case Dialed(t) =>
      var res := Blank3.(connected := true, dialTime := t);
      match out.transport
      case StepFailed(d) => res.(errors := [TransportFailed(d)])
      case StepOk(t2) =>
        var res1 := res.(handshake := true, handshakeTime := t2);
        match out.scan
        case RpcFailed(_, d) => res1.(errors := [PriceTableFailed(d)])
        case RpcOk(t3, pt) =>
          res1.(scanTime := t3, scanned := true, priceTable := Some(pt), warnings := CheckPriceTable(pt, height))
  }

  // ---------------------------------------------------------------------------
  // Properties of the probes
  // ---------------------------------------------------------------------------

  /**
   * Unlike the RHP4 tip-height error, which fires on a gap in either
   * direction, the RHP3 height check only warns about a host that is behind.
   */
  lemma AheadHostNotBehind(pt: PriceTable, height: nat)
    requires height <= pt.hostBlockHeight
    ensures forall m :: m in CheckPriceTable(pt, height) ==> !m.BehindConsensus?
  {
    CheckPriceTableWarnings(pt, height);
  }

  /** A host running the latest release with sound settings draws no RHP2 warning. */
  lemma HealthySettingsPass(s: Settings, announced: string, latest: SemVer, app: string, v: SemVer)
    requires s.acceptingContracts && s.netAddress == announced && s.maxCollateral > 0
    requires 0 < s.collateral && 2 * s.storagePrice <= s.collateral
    requires s.maxDuration >= MinContractDuration
    requires 0 < |app| && Text.NoSpace(app) && Text.NoSpace(v.suffix) && 0 <= Cmp(v, latest)
    requires s.release == app + " " + ToString(v)
    ensures CheckSettings(s, announced, latest) == []
  {
    ReleaseCheckCurrent(app, v, latest);
    EveryCheckPasses(s, announced);
  }

  /** Settings that pass every RHP2 check draw no warning. */
  lemma EveryCheckPasses(s: Settings, announced: string)
    requires s.acceptingContracts && s.netAddress == announced && s.maxCollateral > 0
    requires 0 < s.collateral && 2 * s.storagePrice <= s.collateral
    requires s.maxDuration >= MinContractDuration
    ensures Collect(Checks(s, announced, None)) == []
  {
    CollectPassing(Checks(s, announced, None));
  }

  /**
   * The RHP2 probe dials before it parses the address: an address that does
   * not split is still dialed, and the parse error follows a successful dial.
   */
  lemma DialBeforeSplit(env: Env, latest: SemVer, address: string, out: Outcomes2)
    requires env.splitHostPort(address).Err?
    ensures var r := TestRhp2(env, latest, address, out);
      && (out.dial.Dialed? <==> r.connected)
      && !r.handshake
      && |r.errors| == 1
      && (r.errors[0].BadNetAddress? <==> out.dial.Dialed?)
  {
  }
}

=== FILE: rhp4.dfy ===
/**
 * The RHP4 probe (troubleshoot/rhp4.go): split the address, resolve the host
 * (system resolver, then the fallback DNS resolver), dial over SiaMux or
 * QUIC, fetch the settings and run the fixed battery of checks on them.
 */
module Rhp4 {
  import opened Wrappers
  import opened Versions
  import opened Probe
  import Dns

  /** A transport protocol tag, as the chain announces it. */
  type Protocol = string

  const SiaMux: Protocol := "siamux"
  const Quic: Protocol := "quic"

  datatype NetAddress = NetAddress(protocol: Protocol, address: string)

  /** The part of the host's prices the checks read. */
  datatype Prices = Prices(storagePrice: nat, collateral: nat, tipHeight: nat)

  /** The part of the host's settings the checks read. */
  datatype Settings = Settings(
    release: string,
    acceptingContracts: bool,
    maxCollateral: nat,
    maxContractDuration: nat,
    prices: Prices)

  const ZeroSettings: Settings := Settings("", false, 0, 0, Prices(0, 0, 0))

  /** The record one RHP4 probe fills in. */
  datatype Report = Report(
    netAddress: NetAddress,
    resolvedAddresses: seq<string>,
    connected: bool,
    dialTime: nat,
    handshake: bool,
    handshakeTime: nat,
    scanned: bool,
    scanTime: nat,
    settings: Option<Settings>,
    errors: seq<Message>,
    warnings: seq<Message>)

  /** The zero value of the record. */
  const Blank: Report := Report(NetAddress("", ""), [], false, 0, false, 0, false, 0, None, [], [])

  /** What a failed QUIC dial reports: whether its text mentions "no recent network activity". */
  datatype QuicDialError = QuicDialError(noRecentActivity: bool, detail: string)

  datatype QuicOutcome = QuicDialed(elapsed: nat) | QuicRejected(err: QuicDialError)

  /** The outcomes of every network step one probe may take. */
  datatype Outcomes = Outcomes(
    systemLookup: Result<seq<string>, string>,
    dial: DialOutcome,
    upgrade: StepOutcome,
    quicDial: QuicOutcome,
    settings: RpcOutcome<Settings>)

  /** Stages complete in order: a later stage is reached only after the earlier ones. */
  predicate Staged(r: Report) {
    && (r.handshake ==> r.connected)
    && (r.scanned ==> r.handshake)
    && (r.settings.Some? <==> r.scanned)
  }

  // ---------------------------------------------------------------------------
  // The settings checks
  // ---------------------------------------------------------------------------

  datatype Findings = Findings(warnings: seq<Message>, errors: seq<Message>)

  /**
   * The findings of the settings checks, in the order they run: accepting,
   * max collateral, duration, collateral, and last the release check, whose
   * finding is given.
   */
  function Checks(s: Settings, release: Option<Message>): (cs: seq<Option<Message>>)
    ensures |cs| == 5 && cs[4] == release
  {
    var collateral := CollateralCheck(s.prices.collateral, s.prices.storagePrice);
    [ When(!s.acceptingContracts, NotAcceptingContracts),
      When(s.maxCollateral == 0, NoMaxCollateral),
      When(s.maxContractDuration < MinContractDuration, ShortContractDuration),
      if collateral.Some? then Some(CollateralPrice(collateral.value)) else None,
      release ]
  }

  /** The kinds of warning the non-release settings checks raise. */
  predicate Battery(m: Message) {
    m == NotAcceptingContracts || m == NoMaxCollateral || m == ShortContractDuration || m.CollateralPrice?
  }

  /** Each warning but the release finding is present exactly when its check fails. */
  lemma WarningsExact(s: Settings, release: Option<Message>)
    requires release.Some? ==> IsReleaseFinding(release.value)
    ensures var ws := Collect(Checks(s, release));
      && (NotAcceptingContracts in ws <==> !s.acceptingContracts)
      && (NoMaxCollateral in ws <==> s.maxCollateral == 0)
      && (ShortContractDuration in ws <==> s.maxContractDuration < MinContractDuration)
      && (forall issue :: CollateralPrice(issue) in ws <==>
            CollateralCheck(s.prices.collateral, s.prices.storagePrice) == Some(issue))
  {
    CollectMembers(Checks(s, release));
  }

  /** Only the battery's own kinds of warning, and the given release finding, can appear. */
  lemma WarningsClosed(s: Settings, release: Option<Message>)
    ensures forall m :: m in Collect(Checks(s, release)) ==> Battery(m) || release == Some(m)
  {
    CollectClosed(Checks(s, release), m => Battery(m) || release == Some(m));
  }

  /** The release finding, and no other, is the one release warning. */
  lemma ReleaseWarningExact(s: Settings, release: Option<Message>)
    requires release.Some? ==> IsReleaseFinding(release.value)
    ensures forall m :: m in Collect(Checks(s, release)) && IsReleaseFinding(m) <==> release == Some(m)
  {
    var checks := Checks(s, release);
    CollectMembers(checks);
    forall m | IsReleaseFinding(m)
      ensures Some(m) in checks <==> release == Some(m)
    {
      assert checks == checks[..4] + [release];
      assert Some(m) !in checks[..4];
    }
  }

  /** The warnings appear in the order the checks run, each at most once. */
  lemma WarningsOrdered(s: Settings, release: Option<Message>)
    requires release.Some? ==> IsReleaseFinding(release.value)
    ensures Ascending(Collect(Checks(s, release)))
  {
    var checks := Checks(s, release);
    RankedByPosition(checks, [0, 2, 3, 4, 6]);
    CollectAscending(checks);
  }

  /**
   * The checks on the decoded settings against the tip height and the latest
   * release: a warning for each failed settings check, and the tip-height
   * error, raised when the host is 3 or more blocks off in either direction.
   */
  function CheckSettings(s: Settings, tipHeight: nat, latest: SemVer): (f: Findings)
    ensures f.errors == [] || f.errors == [TipHeightOff(s.prices.tipHeight, tipHeight)]
    ensures f.errors != [] <==> Delta(s.prices.tipHeight, tipHeight) >= 3
  {
    var errors := if Delta(s.prices.tipHeight, tipHeight) >= 3 then [TipHeightOff(s.prices.tipHeight, tipHeight)] else [];
    Findings(Collect(Checks(s, ReleaseCheck(s.release, latest))), errors)
  }

  /**
   * The warnings of the checks: each present exactly when its check fails,
   * in the order the checks run.
   */
  lemma CheckSettingsWarnings(s: Settings, tipHeight: nat, latest: SemVer)
    ensures var ws := CheckSettings(s, tipHeight, latest).warnings;
      && Ascending(ws)
      && (NotAcceptingContracts in ws <==> !s.acceptingContracts)
      && (NoMaxCollateral in ws <==> s.maxCollateral == 0)
      && (ShortContractDuration in ws <==> s.maxContractDuration < MinContractDuration)
      && (forall issue :: CollateralPrice(issue) in ws <==>
            CollateralCheck(s.prices.collateral, s.prices.storagePrice) == Some(issue))
      && (forall m :: m in ws && IsReleaseFinding(m) <==> ReleaseCheck(s.release, latest) == Some(m))
      && (forall m :: m in ws ==> Battery(m) || IsReleaseFinding(m))
  {
    var release := ReleaseCheck(s.release, latest);
    WarningsClosed(s, release);
    WarningsExact(s, release);
    ReleaseWarningExact(s, release);
    WarningsOrdered(s, release);
  }

  // ---------------------------------------------------------------------------
  // The probe stages
  // ---------------------------------------------------------------------------

  /**
   * `testRHP4Transport`: fetch the settings and check them. A failed settings
   * RPC records an error but still marks the probe scanned, stores the zero
   * settings and runs every check on them.
   */
  function TestTransport(res: Report, rpc: RpcOutcome<Settings>, tipHeight: nat, latest: SemVer): (r: Report)
    ensures r.scanned && r.scanTime == rpc.elapsed
    ensures r.settings == Some(if rpc.RpcOk? then rpc.value else ZeroSettings)
    ensures var f := CheckSettings(r.settings.value, tipHeight, latest);
      && r.warnings == res.warnings + f.warnings
      && r.errors == res.errors + (if rpc.RpcFailed? then [SettingsFailed(rpc.detail)] else []) + f.errors
    ensures r.(scanned := res.scanned, scanTime := res.scanTime, settings := res.settings,
               warnings := res.warnings, errors := res.errors) == res
  {
    var settings := if rpc.RpcOk? then rpc.value else ZeroSettings;
    var failed := if rpc.RpcFailed? then [SettingsFailed(rpc.detail)] else [];
    var f := CheckSettings(settings, tipHeight, latest);
    res.(errors := res.errors + failed + f.errors,
         scanTime := rpc.elapsed,
         scanned := true,
         settings := Some(settings),
         warnings := res.warnings + f.warnings)
  }

  /** `testRHP4SiaMux`: dial over TCP, upgrade to SiaMux, then the transport checks. */
  function TestSiaMux(res: Report, address: string, out: Outcomes, tipHeight: nat, latest: SemVer): (r: Report)
    requires !res.connected && !res.handshake && !res.scanned && res.settings.None?
    ensures Staged(r)
    ensures out.dial.DialRejected? ==>
              r == res.(errors := res.errors + [ClassifyDial(address, out.dial.err)])
    ensures out.dial.Dialed? ==> r.connected && r.dialTime == out.dial.elapsed
    ensures out.dial.Dialed? && out.upgrade.StepFailed? ==>
              r == res.(dialTime := out.dial.elapsed, connected := true,
                        errors := res.errors + [SiaMuxFailed(out.upgrade.detail)])
    ensures r.handshake <==> out.dial.Dialed? && out.upgrade.StepOk?
    ensures r.scanned <==> r.handshake
    ensures out.dial.Dialed? && out.upgrade.StepOk? ==>
              r == TestTransport(res.(dialTime := out.dial.elapsed, connected := true,
                                      handshakeTime := out.upgrade.elapsed, handshake := true),
                                 out.settings, tipHeight, latest)
    ensures r.resolvedAddresses == res.resolvedAddresses && r.netAddress == res.netAddress
  {
    match out.dial
    case DialRejected(e) => res.(errors := res.errors + [ClassifyDial(address, e)])
    case Dialed(t) =>
      var res1 := res.(dialTime := t, connected := true);
      match out.upgrade
      case StepFailed(d) => res1.(errors := res1.errors + [SiaMuxFailed(d)])
      case StepOk(t2) => TestTransport(res1.(handshakeTime := t2, handshake := true), out.settings, tipHeight, latest)
  }

  /**
   * `testRHP4Quic`: one QUIC dial performs connection and handshake together,
   * so both flags are set at once and no dial time is recorded. A dial that
   * saw no network activity is reported as a likely blocked UDP port.
   */
  function TestQuic(res: Report, port: string, out: Outcomes, tipHeight: nat, latest: SemVer): (r: Report)
    requires !res.connected && !res.handshake && !res.scanned && res.settings.None?
    ensures Staged(r)
    ensures r.connected == r.handshake
    ensures r.dialTime == res.dialTime
    ensures out.quicDial.QuicRejected? ==>
              r == res.(errors := res.errors + [if out.quicDial.err.noRecentActivity then QuicPortBlocked(port)
                                                else QuicFailed(out.quicDial.err.detail)])
    ensures r.scanned <==> out.quicDial.QuicDialed?
    ensures out.quicDial.QuicDialed? ==>
              r == TestTransport(res.(handshakeTime := out.quicDial.elapsed, connected := true, handshake := true),
                                 out.settings, tipHeight, latest)
    ensures r.resolvedAddresses == res.resolvedAddresses && r.netAddress == res.netAddress
  {
    match out.quicDial
    case QuicRejected(e) =>
      var m := if e.noRecentActivity then QuicPortBlocked(port) else QuicFailed(e.detail);
      res.(errors := res.errors + [m])
    case QuicDialed(t) =>
      TestTransport(res.(handshakeTime := t, connected := true, handshake := true), out.settings, tipHeight, latest)
  }

  /**
   * `lookupIPs`: the system resolver's answer when it has one, else the
   * fallback DNS resolver's; its error keeps the DNS error as its cause.
   */
  function LookupIPs(env: Env, systemLookup: Result<seq<string>, string>, host: string): (r: Result<seq<string>, Dns.DnsError>)
    ensures systemLookup.Ok? ==> r == Ok(systemLookup.value)
    ensures systemLookup.Err? ==> r.Ok? == Dns.LookupIP(env.exchange, env.parseIP, host).result.Ok?
    ensures systemLookup.Err? && r.Err? ==> r.error == Dns.LookupIP(env.exchange, env.parseIP, host).result.error
    ensures systemLookup.Err? && r.Ok? ==> r.value == Dns.LookupIP(env.exchange, env.parseIP, host).result.value
  {
    match systemLookup
    case Ok(ips) => Ok(ips)
    case Err(_) =>
      var fallback := Dns.LookupIP(env.exchange, env.parseIP, host).result;
      if fallback.Ok? then Ok(fallback.value) else Err(fallback.error)
  }

  /**
   * `testRHP4`: split the address, resolve its host, then run the probe for
   * its protocol. A bad address or a failed lookup ends the probe before any
   * dial.
   */
  function TestRhp4(env: Env, latest: SemVer, tipHeight: nat, netAddr: NetAddress, out: Outcomes): (r: Report)
    ensures Staged(r)
    ensures r.netAddress == netAddr
    ensures r.warnings != [] ==> r.scanned
    ensures r.connected ==> netAddr.protocol == SiaMux || netAddr.protocol == Quic
    ensures env.splitHostPort(netAddr.address).Err? ==>
              r == Blank.(netAddress := netAddr,
                          errors := [BadNetAddress(netAddr.address, env.splitHostPort(netAddr.address).error)])
    ensures env.splitHostPort(netAddr.address).Ok? ==>
              var host := env.splitHostPort(netAddr.address).value.host;
              var lookup := LookupIPs(env, out.systemLookup, host);
              && (lookup.Err? ==>
                    r == Blank.(netAddress := netAddr,
                                errors := [if Dns.IsNotFound(lookup.error) then DnsNotFound(host)
                                           else LookupFailed(host, lookup.error)]))
              && (lookup.Ok? ==> r.resolvedAddresses == lookup.value)
              && (lookup.Ok? && netAddr.protocol != SiaMux && netAddr.protocol != Quic ==>
                    r == Blank.(netAddress := netAddr, resolvedAddresses := lookup.value,
                                errors := [UnknownProtocol(netAddr.protocol)]))
  {
    var res := Blank.(netAddress := netAddr);
    match env.splitHostPort(netAddr.address)
    case Err(d) => res.(errors := [BadNetAddress(netAddr.address, d)])
    case Ok(hp) =>
      match LookupIPs(env, out.systemLookup, hp.host)
      case Err(e) =>
        res.(errors := [if Dns.IsNotFound(e) then DnsNotFound(hp.host) else LookupFailed(hp.host, e)])
      case Ok(ips) =>
        var res1 := res.(resolvedAddresses := ips);
        if netAddr.protocol == SiaMux then TestSiaMux(res1, netAddr.address, out, tipHeight, latest)
        else if netAddr.protocol == Quic then TestQuic(res1, hp.port, out, tipHeight, latest)
        else res1.(errors := [UnknownProtocol(netAddr.protocol)])
  }

  /**
   * Once the host resolves, a SiaMux or a QUIC address is probed on the
   * record that holds the address and the resolved addresses. Both dial the
   * full address; the QUIC probe is also given the port, which it uses only
   * in the blocked-UDP message.
   */
  lemma TestRhp4Dispatch(env: Env, latest: SemVer, tipHeight: nat, netAddr: NetAddress, out: Outcomes)
    requires env.splitHostPort(netAddr.address).Ok?
    ensures var hp := env.splitHostPort(netAddr.address).value;
      var lookup := LookupIPs(env, out.systemLookup, hp.host);
      var res := Blank.(netAddress := netAddr, resolvedAddresses := if lookup.Ok? then lookup.value else []);
      var r := TestRhp4(env, latest, tipHeight, netAddr, out);
      && (lookup.Ok? && netAddr.protocol == SiaMux ==> r == TestSiaMux(res, netAddr.address, out, tipHeight, latest))
      && (lookup.Ok? && netAddr.protocol == Quic ==> r == TestQuic(res, hp.port, out, tipHeight, latest))
  {
  }

  // ---------------------------------------------------------------------------
  // Properties of the probe
  // ---------------------------------------------------------------------------

  /** The errors only the manager raises, about several probes of one host. */
  predicate ManagerError(m: Message) {
    m.DuplicateProtocol? || m.MultipleVersions?
  }

  /** A single probe never raises a duplicate-protocol or multiple-versions error. */
  lemma ProbeErrors(env: Env, latest: SemVer, tipHeight: nat, netAddr: NetAddress, out: Outcomes)
    ensures forall m :: m in TestRhp4(env, latest, tipHeight, netAddr, out).errors ==> !ManagerError(m)
  {
    var r := TestRhp4(env, latest, tipHeight, netAddr, out);
    match env.splitHostPort(netAddr.address)
    case Err(_) =>
    case Ok(hp) =>
      match LookupIPs(env, out.systemLookup, hp.host)
      case Err(_) =>
      case Ok(ips) =>
        var res1 := Blank.(netAddress := netAddr, resolvedAddresses := ips);
        if netAddr.protocol == SiaMux {
          assert r == TestSiaMux(res1, netAddr.address, out, tipHeight, latest);
          if out.dial.Dialed? && out.upgrade.StepOk? {
            var res2 := res1.(dialTime := out.dial.elapsed, connected := true,
                              handshakeTime := out.upgrade.elapsed, handshake := true);
            assert r == TestTransport(res2, out.settings, tipHeight, latest);
          }
        } else if netAddr.protocol == Quic {
          assert r == TestQuic(res1, hp.port, out, tipHeight, latest);
        }
  }

  /**
   * Settings that fail every check draw every warning, one per check, in
   * the order the checks run.
   */
  lemma EveryCheckFails(s: Settings, issue: CollateralIssue, release: Message)
    requires !s.acceptingContracts && s.maxCollateral == 0 && s.maxContractDuration < MinContractDuration
    requires CollateralCheck(s.prices.collateral, s.prices.storagePrice) == Some(issue)
    ensures Collect(Checks(s, Some(release))) ==
      [NotAcceptingContracts, NoMaxCollateral, ShortContractDuration, CollateralPrice(issue), release]
  {
    var checks := [Some(NotAcceptingContracts), Some(NoMaxCollateral), Some(ShortContractDuration),
                   Some(CollateralPrice(issue)), Some(release)];
    assert Checks(s, Some(release)) == checks;
    CollectFailing(checks);
  }

  /** Settings that pass every check draw no warning. */
  lemma EveryCheckPasses(s: Settings)
    requires s.acceptingContracts && s.maxCollateral > 0 && s.maxContractDuration >= MinContractDuration
    requires 0 < s.prices.collateral && 2 * s.prices.storagePrice <= s.prices.collateral
    ensures Collect(Checks(s, None)) == []
  {
    CollectPassing(Checks(s, None));
  }

  /**
   * The zero settings, on a synced host, draw every warning they can: the
   * empty release is "unknown".
   */
  lemma ZeroSettingsFindings(latest: SemVer)
    ensures CheckSettings(ZeroSettings, 0, latest) ==
      Findings([NotAcceptingContracts, NoMaxCollateral, ShortContractDuration,
                CollateralPrice(NoCollateral), UnknownVersion("")], [])
  {
    ReleaseCheckEmpty(latest);
    assert CollateralCheck(0, 0) == Some(NoCollateral);
    EveryCheckFails(ZeroSettings, NoCollateral, UnknownVersion(""));
  }

  /**
   * A failed settings RPC on a synced host: the probe is still marked scanned
   * with the zero settings, the RPC error is recorded first and every warning
   * of the zero settings follows.
   */
  lemma FailedRpcChecksZeroSettings(res: Report, elapsed: nat, detail: string, latest: SemVer)
    ensures var r := TestTransport(res, RpcFailed(elapsed, detail), 0, latest);
      && r.scanned && r.settings == Some(ZeroSettings)
      && r.errors == res.errors + [SettingsFailed(detail)]
      && r.warnings == res.warnings + [NotAcceptingContracts, NoMaxCollateral, ShortContractDuration,
                                       CollateralPrice(NoCollateral), UnknownVersion("")]
  {
    ZeroSettingsFindings(latest);
  }

  /**
   * A host that accepts contracts, offers collateral, at least double its
   * storage price, a long enough duration, is in sync and runs the latest
   * release (or newer) gets no warning and no error from the checks.
   */
  lemma HealthySettingsPass(s: Settings, tipHeight: nat, latest: SemVer, app: string, v: SemVer)
    requires s.acceptingContracts && s.maxCollateral > 0 && s.maxContractDuration >= MinContractDuration
    requires 0 < s.prices.collateral && 2 * s.prices.storagePrice <= s.prices.collateral
    requires Delta(s.prices.tipHeight, tipHeight) < 3
    requires 0 < |app| && Text.NoSpace(app) && Text.NoSpace(v.suffix) && 0 <= Cmp(v, latest)
    requires s.release == app + " " + ToString(v)
    ensures CheckSettings(s, tipHeight, latest) == Findings([], [])
  {
    ReleaseCheckCurrent(app, v, latest);
    EveryCheckPasses(s);
  }
}

=== FILE: text.dfy ===
/**
 * The pieces of Go's `strings` and `strconv` packages that the version parser
 * and the release-string parser rely on: `strings.Index`, `strings.Split`,
 * `strings.Fields`, base-10 formatting (`%d`) and base-10 parsing of
 * unsigned integers.
 */
module Text {
  import opened Wrappers

  // ---------------------------------------------------------------------------
  // Decimal numerals
  // ---------------------------------------------------------------------------

  predicate IsDigit(c: char) {
    '0' <= c <= '9'
  }

  predicate AllDigits(s: string) {
    forall i :: 0 <= i < |s| ==> IsDigit(s[i])
  }

  function DigitValue(c: char): (d: nat)
    requires IsDigit(c)
    ensures d < 10
  {
    c as int - '0' as int
  }

  function DigitChar(d: nat): (c: char)
    requires d < 10
    ensures IsDigit(c) && DigitValue(c) == d
  {
    ('0' as int + d) as char
  }

  /** The value of a string of decimal digits, most significant digit first. */
  function DecimalValue(s: string): nat
    requires AllDigits(s)
  {
    if |s| == 0 then 0 else DecimalValue(s[..|s| - 1]) * 10 + DigitValue(s[|s| - 1])
  }

  /** The shortest base-10 numeral of `n`, as `fmt`'s `%d` prints it. */
  function Decimal(n: nat): (s: string)
    ensures 0 < |s| && AllDigits(s)
    ensures DecimalValue(s) == n
    ensures |s| == 1 <==> n < 10
    ensures s[0] == '0' ==> n == 0
  {
    if n < 10 then [DigitChar(n)]
    else
      var prefix := Decimal(n / 10);
      var s := prefix + [DigitChar(n % 10)];
      assert s[..|s| - 1] == prefix;
      assert s[0] == prefix[0];
      s
  }

  /** Why `strconv.ParseUint` rejected its input. */
  datatype NumError = ErrSyntax | ErrRange

  /**
   * `strconv.ParseUint(s, 10, 8)`: a non-empty run of ASCII digits (no sign,
   * no underscore, no base prefix) whose value fits in 8 bits. Leading zeros
   * are accepted. An out-of-range value is an error, never truncated.
   */
  function ParseUint8(s: string): (r: Result<nat, NumError>)
    ensures r.Ok? <==> 0 < |s| && AllDigits(s) && DecimalValue(s) < 256
    ensures r.Ok? ==> r.value == DecimalValue(s)
  {
    if |s| == 0 || !AllDigits(s) then Err(ErrSyntax)
    else if DecimalValue(s) >= 256 then Err(ErrRange)
    else Ok(DecimalValue(s))
  }

  lemma ParseUint8Decimal(n: nat)
    requires n < 256
    ensures ParseUint8(Decimal(n)) == Ok(n)
  {
  }

  // ---------------------------------------------------------------------------
  // strings.Index and strings.Split with a one-character separator
  // ---------------------------------------------------------------------------

  /** `strings.Index(s, string(c))`: the position of the first `c` in `s`, if any. */
  function IndexOf(s: string, c: char): (r: Option<nat>)
    ensures r.Some? ==> r.value < |s| && s[r.value] == c && c !in s[..r.value]
    ensures r.None? <==> c !in s
  {
    if |s| == 0 then None
    else if s[0] == c then Some(0)
    else
      match IndexOf(s[1..], c)
      case None => None
      case Some(k) =>
        assert s[..k + 1] == [s[0]] + s[1..][..k];
        Some(k + 1)
  }

  lemma IndexOfAfterPrefix(x: string, c: char, y: string)
    requires c !in x
    ensures IndexOf(x + [c] + y, c) == Some(|x|)
  {
    assert (x + [c] + y)[|x|] == c;
  }

  /** The parts joined back together with `sep` between them (`strings.Join`). */
  function Join(parts: seq<string>, sep: char): string {
    if |parts| == 0 then ""
    else if |parts| == 1 then parts[0]
    else parts[0] + [sep] + Join(parts[1..], sep)
  }

  /**
   * `strings.Split(s, string(sep))`: the maximal `sep`-free pieces of `s`, in
   * order. There is always at least one piece (the empty string splits into
   * one empty piece), and joining the pieces gives back `s`.
   */
  function Split(s: string, sep: char): (parts: seq<string>)
    ensures 0 < |parts|
    ensures forall i :: 0 <= i < |parts| ==> sep !in parts[i]
    ensures Join(parts, sep) == s
    decreases |s|
  {
    match IndexOf(s, sep)
    case None => [s]
    case Some(k) =>
      var rest := Split(s[k + 1..], sep);
      var parts := [s[..k]] + rest;
      assert parts[1..] == rest;
      assert s == s[..k] + [sep] + s[k + 1..];
      parts
  }

  /** Splitting undoes joining, provided no piece contains the separator. */
  lemma {:induction false} SplitJoin(parts: seq<string>, sep: char)
    requires 0 < |parts|
    requires forall i :: 0 <= i < |parts| ==> sep !in parts[i]
    ensures Split(Join(parts, sep), sep) == parts
    decreases |parts|
  {
    var s := Join(parts, sep);
    if |parts| == 1 {
      assert IndexOf(s, sep) == None;
    } else {
      var rest := Join(parts[1..], sep);
      var k := |parts[0]|;
      assert s == parts[0] + [sep] + rest;
      IndexOfAfterPrefix(parts[0], sep, rest);
      assert s[..k] == parts[0];
      assert s[k + 1..] == rest;
      SplitJoin(parts[1..], sep);
      assert Split(s, sep) == [parts[0]] + Split(rest, sep);
      assert parts == [parts[0]] + parts[1..];
    }
  }

  // ---------------------------------------------------------------------------
  // strings.Fields
  // ---------------------------------------------------------------------------

  /**
   * `unicode.IsSpace`: the Latin-1 spaces '\t', '\n', '\v', '\f', '\r', ' ',
   * U+0085 and U+00A0, and outside Latin-1 the White_Space property.
   */
  predicate IsSpace(c: char) {
    || c == '\t' || c == '\n' || c == '\U{0B}' || c == '\U{0C}' || c == '\r' || c == ' '
    || c == '\U{85}' || c == '\U{A0}'
    || c == '\U{1680}' || ('\U{2000}' <= c <= '\U{200A}')
    || c == '\U{2028}' || c == '\U{2029}' || c == '\U{202F}' || c == '\U{205F}' || c == '\U{3000}'
  }

  predicate NoSpace(s: string) {
    forall i :: 0 <= i < |s| ==> !IsSpace(s[i])
  }

  /** Length of the longest space-free prefix of `s`. */
  function WordLength(s: string): (n: nat)
    ensures n <= |s|
    ensures NoSpace(s[..n])
    ensures n < |s| ==> IsSpace(s[n])
  {
    if |s| == 0 || IsSpace(s[0]) then 0
    else
      var n := WordLength(s[1..]) + 1;
      assert s[..n] == [s[0]] + s[1..][..n - 1];
      n
  }

  /**
   * `strings.Fields`: the maximal runs of non-space characters of `s`, in
   * order. Every field is non-empty and holds no space.
   */
  function Fields(s: string): (r: seq<string>)
    ensures forall i :: 0 <= i < |r| ==> 0 < |r[i]| && NoSpace(r[i])
    decreases |s|
  {
    if |s| == 0 then []
    else if IsSpace(s[0]) then Fields(s[1..])
    else
      var n := WordLength(s);
      [s[..n]] + Fields(s[n..])
  }

  /*
   * The lemmas below pin Fields down from the outside. WordLength finds where
   * a field ends; WordLengthOfWord says that a space-free word followed by
   * nothing or by a space is read as one whole field, which is the step every
   * round trip through Fields takes once per word.
   */

  lemma WordLengthOfWord(w: string, y: string)
    requires NoSpace(w)
    requires y == [] || IsSpace(y[0])
    ensures WordLength(w + y) == |w|
  {
    if y != [] {
      assert (w + y)[|w|] == y[0];
    }
  }

  /**
   * Fields undoes joining with single spaces, provided every word is
   * non-empty and space-free.
   */
  lemma {:induction false} FieldsJoin(words: seq<string>)
    requires forall i :: 0 <= i < |words| ==> 0 < |words[i]| && NoSpace(words[i])
    ensures Fields(Join(words, ' ')) == words
    decreases |words|
  {
    if |words| == 1 {
      var w := words[0];
      WordLengthOfWord(w, []);
      assert w + [] == w;
      assert w[|w|..] == [];
      assert w[..|w|] == w;
    } else if |words| > 1 {
      var w := words[0];
      var rest := Join(words[1..], ' ');
      var s := w + [' '] + rest;
      assert Join(words, ' ') == s;
      WordLengthOfWord(w, [' '] + rest);
      assert s == w + ([' '] + rest);
      assert s[..|w|] == w;
      assert s[|w|..] == [' '] + rest;
      assert ([' '] + rest)[1..] == rest;
      FieldsJoin(words[1..]);
      assert words == [w] + words[1..];
    }
  }

  predicate AllSpace(s: string) {
    forall i :: 0 <= i < |s| ==> IsSpace(s[i])
  }

  /**
   * `gaps[0] + words[0] + gaps[1] + ... + words[n - 1] + gaps[n]`: the words
   * with a run of text before, between and after them.
   */
  function Spaced(words: seq<string>, gaps: seq<string>): string
    requires |gaps| == |words| + 1
    decreases |words|
  {
    if |words| == 0 then gaps[0]
    else gaps[0] + words[0] + Spaced(words[1..], gaps[1..])
  }

  /** Leading whitespace contributes no field. */
  lemma {:induction false} FieldsSkipsSpace(g: string, s: string)
    requires AllSpace(g)
    ensures Fields(g + s) == Fields(s)
    decreases |g|
  {
    if |g| > 0 {
      assert (g + s)[0] == g[0];
      assert (g + s)[1..] == g[1..] + s;
      FieldsSkipsSpace(g[1..], s);
    } else {
      assert g + s == s;
    }
  }

  /** A space-free word followed by nothing or by whitespace is one whole field. */
  lemma FieldsTakesWord(w: string, s: string)
    requires 0 < |w| && NoSpace(w)
    requires s == [] || IsSpace(s[0])
    ensures Fields(w + s) == [w] + Fields(s)
  {
    WordLengthOfWord(w, s);
    assert (w + s)[0] == w[0];
    assert (w + s)[..|w|] == w;
    assert (w + s)[|w|..] == s;
  }

  /**
   * `strings.Fields` splits at runs of whitespace of any length and ignores
   * whitespace before the first and after the last field: non-empty
   * space-free words separated by non-empty whitespace runs, with optional
   * whitespace around them, come back as exactly those words.
   */
  lemma {:induction false} FieldsSpaced(words: seq<string>, gaps: seq<string>)
    requires |gaps| == |words| + 1
    requires forall i :: 0 <= i < |words| ==> 0 < |words[i]| && NoSpace(words[i])
    requires forall i :: 0 <= i < |gaps| ==> AllSpace(gaps[i])
    requires forall i :: 0 < i < |words| ==> 0 < |gaps[i]|
    ensures Fields(Spaced(words, gaps)) == words
    decreases |words|
  {
    if |words| == 0 {
      FieldsSkipsSpace(gaps[0], []);
      assert gaps[0] + [] == gaps[0];
    } else {
      var rest := Spaced(words[1..], gaps[1..]);
      assert rest == [] || IsSpace(rest[0]) by {
        if |words| == 1 {
          assert rest == gaps[1];
        } else {
          assert rest == gaps[1] + words[1] + Spaced(words[2..], gaps[2..]);
          assert rest[0] == gaps[1][0];
        }
      }
      assert Spaced(words, gaps) == gaps[0] + (words[0] + rest);
      FieldsSkipsSpace(gaps[0], words[0] + rest);
      FieldsTakesWord(words[0], rest);
      FieldsSpaced(words[1..], gaps[1..]);
      assert words == [words[0]] + words[1..];
    }
  }
}

=== FILE: versions.dfy ===
/**
 * Release versions of the form `vMAJOR.MINOR.PATCH[-SUFFIX]`
 * (troubleshoot/semver.go): parsing, printing and ordering.
 *
 * The ordering is not the precedence rule of Semantic Versioning 2.0.0: two
 * versions with equal numbers that both carry a suffix compare equal,
 * whatever the suffix text.
 */
module Versions {
  import opened Wrappers
  import opened Text

  /** One byte: the storage type of each numeric component. */
  type Byte = x: int | 0 <= x < 256

  datatype SemVer = SemVer(major: Byte, minor: Byte, patch: Byte, suffix: string)

  datatype Component = Major | Minor | Patch

  /** One constructor per error text of the parser. */
  datatype ParseError =
    | EmptyVersion                                  // "empty version string"
    | BadPrefix(text: string)                       // "invalid version format" (no leading 'v')
    | BadShape(text: string)                        // "invalid version format" (not three parts)
    | BadComponent(which: Component, text: string)  // "invalid major/minor/patch version"

  // ---------------------------------------------------------------------------
  // Printing
  // ---------------------------------------------------------------------------

  /** The text form: `-suffix` is printed only when the suffix is non-empty. */
  function ToString(v: SemVer): (s: string)
    ensures 0 < |s| && s[0] == 'v'
    ensures '-' in s <==> v.suffix != ""
  {
    var a, b, c := Decimal(v.major), Decimal(v.minor), Decimal(v.patch);
    var numbers := "v" + a + "." + b + "." + c;
    assert forall i :: 0 <= i < |numbers| ==> numbers[i] != '-' by {
      forall i | 0 <= i < |numbers|
        ensures numbers[i] != '-'
      {
        if 1 <= i < 1 + |a| {
          assert numbers[i] == a[i - 1];
        } else if 2 + |a| <= i < 2 + |a| + |b| {
          assert numbers[i] == b[i - 2 - |a|];
        } else if 3 + |a| + |b| <= i {
          assert numbers[i] == c[i - 3 - |a| - |b|];
        }
      }
    }
    if v.suffix != "" then
      assert (numbers + "-" + v.suffix)[|numbers|] == '-';
      numbers + "-" + v.suffix
    else numbers
  }

  // ---------------------------------------------------------------------------
  // Parsing
  // ---------------------------------------------------------------------------

  /** Cuts `s` at its first '-': the text before it, and everything after it. */
  function CutSuffix(s: string): (r: (string, string))
    ensures '-' !in r.0
    ensures (r.0 == s && r.1 == "") || s == r.0 + "-" + r.1
  {
    match IndexOf(s, '-')
    case None => (s, "")
    case Some(k) =>
      assert s == s[..k] + "-" + s[k + 1..];
      (s[..k], s[k + 1..])
  }

  function ParseComponent(which: Component, text: string): (r: Result<Byte, ParseError>)
    ensures r.Ok? <==> ParseUint8(text).Ok?
    ensures r.Ok? ==> r.value == ParseUint8(text).value
    ensures r.Err? ==> r.error == BadComponent(which, text)
  {
    match ParseUint8(text)
    case Ok(n) => Ok(n as Byte)
    case Err(_) => Err(BadComponent(which, text))
  }

  /**
   * The text unmarshaller. The input must start with 'v'; the suffix is
   * everything after the first '-'; what lies between must split on '.' into
   * exactly three base-10 numerals, each at most 255.
   */
  function Parse(s: string): (r: Result<SemVer, ParseError>)
    ensures r == Err(EmptyVersion) <==> |s| == 0
    ensures r.Err? && r.error.BadPrefix? <==> 0 < |s| && s[0] != 'v'
    ensures r.Err? && r.error.BadComponent? ==> ParseUint8(r.error.text).Err?
  {
    if |s| == 0 then Err(EmptyVersion)
    else if s[0] != 'v' then Err(BadPrefix(s))
    else
      var (numbers, suffix) := CutSuffix(s[1..]);
      var parts := Split(numbers, '.');
      if |parts| != 3 then Err(BadShape(numbers))
      else
        var major :- ParseComponent(Major, parts[0]);
        var minor :- ParseComponent(Minor, parts[1]);
        var patch :- ParseComponent(Patch, parts[2]);
        Ok(SemVer(major, minor, patch, suffix))
  }

  /** `a` is a base-10 numeral (leading zeros allowed) whose value is `n`. */
  predicate Numeral(a: string, n: nat) {
    0 < |a| && AllDigits(a) && DecimalValue(a) == n
  }

  /** How the text after the patch numeral encodes the suffix. */
  predicate SuffixTail(tail: string, suffix: string) {
    (tail == "" && suffix == "") || tail == "-" + suffix
  }

  /** `s` is spelled as 'v', three dot-separated pieces, then a tail. */
  predicate Spells(s: string, a: string, b: string, c: string, tail: string) {
    s == "v" + (a + "." + b + "." + c) + tail
  }

  lemma DigitsHaveNoSeparators(a: string)
    requires AllDigits(a)
    ensures '.' !in a && '-' !in a
  {
  }

  lemma JoinThree(a: string, b: string, c: string, sep: char)
    ensures Join([a, b, c], sep) == a + [sep] + b + [sep] + c
  {
    assert [a, b, c][1..] == [b, c];
    assert [b, c][1..] == [c];
    assert Join([c], sep) == c;
    assert Join([b, c], sep) == b + [sep] + c;
    assert Join([a, b, c], sep) == a + [sep] + (b + [sep] + c);
  }

  /**
   * With 'v' in front and separator-free pieces, the parser reads the three
   * pieces as the components in order and the tail as the suffix; the first
   * piece that is not a numeral of at most 255 is reported.
   */
  lemma ParsePieces(a: string, b: string, c: string, tail: string)
    requires '.' !in a && '.' !in b && '.' !in c
    requires '-' !in a && '-' !in b && '-' !in c
    requires tail == "" || tail[0] == '-'
    ensures var suffix := if tail == "" then "" else tail[1..];
      Parse("v" + a + "." + b + "." + c + tail) ==
        if ParseUint8(a).Err? then Err(BadComponent(Major, a))
        else if ParseUint8(b).Err? then Err(BadComponent(Minor, b))
        else if ParseUint8(c).Err? then Err(BadComponent(Patch, c))
        else Ok(SemVer(ParseUint8(a).value, ParseUint8(b).value, ParseUint8(c).value, suffix))
  {
    var numbers := a + "." + b + "." + c;
    var s := "v" + numbers + tail;
    assert "v" + a + "." + b + "." + c + tail == s;
    assert s[1..] == numbers + tail;
    assert '-' !in numbers;
    if tail == "" {
      assert numbers + tail == numbers;
      assert CutSuffix(numbers) == (numbers, "");
    } else {
      var suffix := tail[1..];
      assert tail == ['-'] + suffix;
      assert numbers + tail == numbers + ['-'] + suffix;
      IndexOfAfterPrefix(numbers, '-', suffix);
      assert (numbers + ['-'] + suffix)[..|numbers|] == numbers;
      assert (numbers + ['-'] + suffix)[|numbers| + 1..] == suffix;
      assert CutSuffix(numbers + tail) == (numbers, suffix);
    }
    JoinThree(a, b, c, '.');
    SplitJoin([a, b, c], '.');
    assert Split(numbers, '.') == [a, b, c];
  }

  /**
   * Completeness: any 'v', three numerals of at most 255 joined by '.', and an
   * optional '-suffix' parse, whatever the suffix holds (including '-' and '.').
   */
  lemma ParseNumerals(a: string, b: string, c: string, tail: string, v: SemVer)
    requires Numeral(a, v.major) && Numeral(b, v.minor) && Numeral(c, v.patch)
    requires SuffixTail(tail, v.suffix)
    ensures Parse("v" + a + "." + b + "." + c + tail) == Ok(v)
  {
    DigitsHaveNoSeparators(a);
    DigitsHaveNoSeparators(b);
    DigitsHaveNoSeparators(c);
    ParsePieces(a, b, c, tail);
  }

  /** Soundness: every accepted string has the shape `ParseNumerals` describes. */
  lemma ParseShape(s: string, v: SemVer)
    requires Parse(s) == Ok(v)
    ensures exists a, b, c, tail :: Spells(s, a, b, c, tail)
              && Numeral(a, v.major) && Numeral(b, v.minor) && Numeral(c, v.patch)
              && SuffixTail(tail, v.suffix)
  {
    var cut := CutSuffix(s[1..]);
    var numbers, suffix := cut.0, cut.1;
    var parts := Split(numbers, '.');
    assert |parts| == 3;
    var a, b, c := parts[0], parts[1], parts[2];
    assert ParseComponent(Major, a).Ok? && ParseComponent(Minor, b).Ok? && ParseComponent(Patch, c).Ok?;
    assert v == SemVer(ParseUint8(a).value, ParseUint8(b).value, ParseUint8(c).value, suffix);
    assert parts == [a, b, c];
    JoinThree(a, b, c, '.');
    assert numbers == a + "." + b + "." + c;
    assert Numeral(a, v.major) && Numeral(b, v.minor) && Numeral(c, v.patch);
    var tail := SpellsAfterCut(s, a, b, c, suffix);
    assert Spells(s, a, b, c, tail) && SuffixTail(tail, v.suffix);
  }

  lemma SpellsAfterCut(s: string, a: string, b: string, c: string, suffix: string) returns (tail: string)
    requires 0 < |s| && s[0] == 'v'
    requires var numbers := a + "." + b + "." + c;
      (s[1..] == numbers && suffix == "") || s[1..] == numbers + "-" + suffix
    ensures Spells(s, a, b, c, tail) && SuffixTail(tail, suffix)
  {
    var numbers := a + "." + b + "." + c;
    assert s == "v" + s[1..];
    if s[1..] == numbers && suffix == "" {
      tail := "";
      assert s == "v" + numbers + tail;
    } else {
      tail := "-" + suffix;
      assert s == "v" + numbers + tail;
    }
  }

  /** Printing then parsing gives back exactly the version printed. */
  lemma ParseToString(v: SemVer)
    ensures Parse(ToString(v)) == Ok(v)
  {
    var tail := if v.suffix != "" then "-" + v.suffix else "";
    ParseNumerals(Decimal(v.major), Decimal(v.minor), Decimal(v.patch), tail, v);
    assert ToString(v) == "v" + Decimal(v.major) + "." + Decimal(v.minor) + "." + Decimal(v.patch) + tail;
  }

  /** A component above 255 is an error naming that component, not a truncated value. */
  lemma ParseRejectsOverflow(a: string, b: string, c: string, tail: string)
    requires AllDigits(a) && 256 <= DecimalValue(a)
    requires '.' !in b && '.' !in c && '-' !in b && '-' !in c
    requires tail == "" || tail[0] == '-'
    ensures Parse("v" + a + "." + b + "." + c + tail) == Err(BadComponent(Major, a))
  {
    DigitsHaveNoSeparators(a);
    ParsePieces(a, b, c, tail);
  }

  // ---------------------------------------------------------------------------
  // Ordering
  // ---------------------------------------------------------------------------

  /**
   * The comparator. It returns the difference of the first differing
   * component (not just -1/0/1), then ranks a suffix-free version above a
   * suffixed one; two suffixed versions with equal numbers compare 0.
   */
  function Cmp(a: SemVer, b: SemVer): (r: int)
    ensures r == 0 <==> a.major == b.major && a.minor == b.minor && a.patch == b.patch
                        && (a.suffix == "" <==> b.suffix == "")
  {
    if a.major != b.major then a.major - b.major
    else if a.minor != b.minor then a.minor - b.minor
    else if a.patch != b.patch then a.patch - b.patch
    else if a.suffix == "" && b.suffix != "" then 1
    else if a.suffix != "" && b.suffix == "" then -1
    else 0
  }

  function Sign(x: int): int {
    if x < 0 then -1 else if x == 0 then 0 else 1
  }

  /**
   * A reference key for the same order: the numbers weighted so that each
   * outranks all later ones, plus one for a release without suffix.
   */
  function Weight(v: SemVer): nat {
    131072 * v.major + 512 * v.minor + 2 * v.patch + (if v.suffix == "" then 1 else 0)
  }

  /** The comparator's sign is the sign of the reference keys' difference. */
  lemma CmpMatchesWeight(a: SemVer, b: SemVer)
    ensures Sign(Cmp(a, b)) == Sign(Weight(a) - Weight(b))
  {
  }

  lemma CmpReflexive(a: SemVer)
    ensures Cmp(a, a) == 0
  {
  }

  /** Swapping the arguments negates the result exactly. */
  lemma CmpAntisymmetric(a: SemVer, b: SemVer)
    ensures Cmp(a, b) == -Cmp(b, a)
  {
  }

  lemma CmpTransitive(a: SemVer, b: SemVer, c: SemVer)
    ensures Cmp(a, b) <= 0 && Cmp(b, c) <= 0 ==> Cmp(a, c) <= 0
    ensures Cmp(a, b) < 0 && Cmp(b, c) <= 0 ==> Cmp(a, c) < 0
    ensures Cmp(a, b) == 0 && Cmp(b, c) == 0 ==> Cmp(a, c) == 0
  {
    CmpMatchesWeight(a, b);
    CmpMatchesWeight(b, c);
    CmpMatchesWeight(a, c);
  }

  /** When the numbers differ they alone decide, lexicographically; suffixes are ignored. */
  lemma CmpNumbersDominate(a: SemVer, b: SemVer)
    requires (a.major, a.minor, a.patch) != (b.major, b.minor, b.patch)
    ensures Cmp(a, b) < 0 <==>
              || a.major < b.major
              || (a.major == b.major && a.minor < b.minor)
              || (a.major == b.major && a.minor == b.minor && a.patch < b.patch)
    ensures Cmp(a, b) != 0
    ensures Cmp(a, b) == Cmp(a.(suffix := ""), b.(suffix := "x"))
  {
  }

  /** With equal numbers only the presence of a suffix matters, never its text. */
  lemma CmpSuffixPresence(a: SemVer, b: SemVer)
    requires (a.major, a.minor, a.patch) == (b.major, b.minor, b.patch)
    ensures a.suffix == "" && b.suffix != "" ==> Cmp(a, b) == 1
    ensures a.suffix != "" && b.suffix != "" ==> Cmp(a, b) == 0
    ensures Cmp(a, b) == 0 <==> (a.suffix == "") == (b.suffix == "")
  {
  }

  /**
   * The result is the difference of the first differing component, not
   * clamped to -1/0/1, and a suffix's text is never compared.
   */
  lemma CmpIsDifference(a: SemVer, b: SemVer)
    ensures a.major != b.major ==> Cmp(a, b) == a.major - b.major
    ensures a.major == b.major && a.minor != b.minor ==> Cmp(a, b) == a.minor - b.minor
    ensures a.major == b.major && a.minor == b.minor && a.patch != b.patch ==> Cmp(a, b) == a.patch - b.patch
    ensures (a.major, a.minor, a.patch) == (b.major, b.minor, b.patch) ==> -1 <= Cmp(a, b) <= 1
    ensures Cmp(a, b) == Cmp(a.(suffix := if a.suffix == "" then "" else "x"), b.(suffix := if b.suffix == "" then "" else "y"))
    ensures Cmp(SemVer(5, 0, 0, ""), SemVer(1, 0, 0, "")) == 4
  {
  }
}

=== FILE: wrappers.dfy ===
/** Failure-carrying datatypes shared by every module of the model. */
module Wrappers {

  /** An optional value: the model's stand-in for a nil pointer. */
  datatype Option<+T> = None | Some(value: T)

  /** A value or the error that replaced it: the model's stand-in for Go's `(T, error)` pair. */
  datatype Result<+T, +E> = Ok(value: T) | Err(error: E) {

    predicate IsFailure() {
      Err?
    }

    function PropagateFailure<U>(): Result<U, E>
      requires Err?
    {
      Err(error)
    }

    function Extract(): T
      requires Ok?
    {
      value
    }
  }
}
